=== FILE: README.md ===
# Neonatology records: verdict, dashboard and CSV imports in Dafny

This project models the decision logic of a small Django application that keeps
newborn records on a neonatology ward:

- **`sprawdz_parametry`** (module `Verdict`) reads weight, the 5-minute APGAR
  score and blood oxygen saturation out of a dictionary. Absent keys default to
  0 kg, 10 points and 100 %. It checks the three thresholds (APGAR below 7,
  weight below 2.5 kg, SpO2 below 92) in a fixed order and renders either the
  "all normal" sentence or a header line followed by one warning line per
  violated threshold. The model separates the clinical decision (`Evaluate`,
  a `Verdict` datatype) from its rendering (`Render`). It also models Python's
  `float()`/`int()` on dictionary values, including the `TypeError` they raise
  on `None`.
- **`raporty`** (module `Dashboard`) is the doctors' dashboard. For each newborn
  it picks the latest measurement and the latest APGAR record by timestamp. It
  derives a status: hospitalisation beats monitoring beats normal. It builds the
  `combined` dictionary from whichever records exist and runs the same verdict
  on it. The view fails as a whole if any newborn's verdict raises.
- **`dodaj_noworodka`** (module `Dashboard`) merges the three forms' cleaned data
  and runs the verdict on the result. The model proves that this verdict is the
  one the dashboard later shows for the newborn, as long as the new records are
  the latest ones.
- **`import_all_csv`** (module `ImportAll`) runs four passes over pre-parsed CSV
  rows, each using `get_or_create`:
  - mothers, deduplicated by PESEL;
  - newborns, linked through the mother dictionary;
  - measurements, with fixed defaults for the fields the CSV lacks;
  - APGAR rows, pivoted into one record per CSV newborn id, created unless a
    record with that newborn and 1-minute score already exists (then the
    file's 5- and 10-minute scores are dropped).

  Each database table is a map keyed by the lookup fields of its
  `get_or_create`. The lemmas say which row creates each record (the first one
  for its key), which row each id dictionary keeps (the last one), and that
  the import only adds.
- **`importuj_grupy_krwi`** (module `BloodGroups`) copies each row's trimmed
  blood group onto the stored newborn with that id. It counts updates, missing
  newborns and malformed rows. A short row whose id cell is `None`, or whose id is an
  integer and whose group cell is `None`, escapes the per-row handler and ends
  the script. The lemmas characterise the final store, and
  show that a second run over the same file changes nothing, and writes
  nothing when the file is consistent and its groups are non-blank.

Shared vocabulary sits in `Basics` (`Option`, `Result`, dictionary lookup),
`PyValues` (Python values, `float`, `int`, `str.strip`, integer formatting),
`Text` (newline join and split) and `Records` (the stored measurement and APGAR
rows).

The dashboard's status and its verdict disagree for a newborn without a
measurement record whose latest APGAR record, if any, has a 5-minute score of
at least 7. The status is "Parametry w normie", because no weight means no
weight alarm. But the verdict reports a weight of 0 kg, because the missing key
defaults to 0. `Dashboard.NoParametryNormalStatusLowWeightVerdict` states this
for every such newborn. With a lower 5-minute score the status is
hospitalisation instead. Likewise, a `None` weight, SpO2 or APGAR score
makes the verdict raise `TypeError`, and with it the whole dashboard
(`Dashboard.CombinedVerdictDefined`, `Dashboard.Raporty`).

## Model

| member | source | states |
|---|---|---|
| PyValues.Float | neonatology/views.py:122 | `float()` succeeds exactly on booleans and numbers, keeps a number's value, and raises `TypeError` on `None` and other objects |
| PyValues.Int | neonatology/views.py:123-124 | `int()` succeeds exactly on booleans and numbers, keeps an integer, truncates a float toward zero, and raises `TypeError` on `None` |
| PyValues.Trunc | neonatology/views.py:123-124 | `int()` of a float truncates toward zero: the result lies within one of the input, on the zero side |
| PyValues.IntToStringRoundTrip | neonatology/views.py:138 | the decimal text of the SpO2 value in the warning reads back as the same integer |
| Text.SplitJoin | neonatology/views.py:143 | joining newline-free lines with `"\n"` and splitting on newlines gives back the lines |
| Verdict.Evaluate | neonatology/views.py:126-141 | the verdict is normal exactly when all three thresholds pass; otherwise the warnings are non-empty, in rule order APGAR, weight, oxygen, and each warning is present exactly when its rule fired, carrying the measured value |
| Verdict.WarningCount | neonatology/views.py:126-138 | there is one warning per violated threshold, with no duplicates |
| Verdict.Read | neonatology/views.py:122-124 | reading succeeds exactly when all three conversions succeed; a present key yields its value converted by `float()` or `int()`, and absent keys give 0 kg, 10 points and 100 % |
| Verdict.Sprawdz | neonatology/views.py:118-143 | `sprawdz_parametry` raises exactly when reading raises, and otherwise decides by the thresholds on the values read |
| Verdict.LowWeightOnly | neonatology/views.py:122-141 | 2.0 kg with APGAR 9 and SpO2 98 yields exactly one warning: low weight at 2.0 kg |
| Verdict.EmptyInputLowWeightOnly | neonatology/views.py:122-134 | an empty dictionary yields exactly one warning: low weight at 0 kg |
| Verdict.DefaultsPassApgarAndOxygen | neonatology/views.py:123-138 | a missing APGAR or SpO2 key never produces that warning |
| Verdict.ReadsOnlyMeasurementKeys | neonatology/views.py:122-124 | two dictionaries that agree on the three measurement keys get the same verdict, whatever else they hold |
| Verdict.OxygenWarningEmbedsValue | neonatology/views.py:138 | the oxygen warning line contains the SpO2 value as decimal text that parses back to it |
| Verdict.WarningEmbedsValue | neonatology/views.py:130-134 | the weight warning line contains the weight as formatted, and the APGAR line is fixed text |
| Verdict.WarningTextSingleLine | neonatology/views.py:130-138 | every warning sentence is a single line |
| Verdict.RenderLines | neonatology/views.py:140-143 | a normal verdict renders as the single normal sentence; an abnormal one splits into the header line followed by exactly the warning lines, in order |
| Verdict.SprawdzParametry | neonatology/views.py:118-143 | the text is the normal sentence exactly when no threshold is violated, and otherwise starts with the header line and a newline |
| Verdict.LinesAfterHeader | neonatology/views.py:140-143 | the lines after the header are one per violated threshold |
| Dashboard.Latest | neonatology/views.py:71-72 | the latest record is absent exactly when there are no records, and otherwise is one of them with the greatest timestamp |
| Dashboard.LatestOfNewest | neonatology/views.py:71-72 | a record newer than all others is the one picked |
| Dashboard.LabelsDistinct | neonatology/views.py:75-83 | the three status texts differ, so the shown text determines the status |
| Dashboard.DeriveStatus | neonatology/views.py:74-83 | the status is one whose alarm holds and is the most severe such status |
| Dashboard.StatusCases | neonatology/views.py:77-83 | hospitalisation exactly on a low 5-minute APGAR, whatever the measurements; monitoring exactly on low weight or SpO2 without it; never monitoring without a measurement |
| Dashboard.Combined | neonatology/views.py:86-94 | weight and SpO2 keys are present exactly when a measurement exists and the APGAR key exactly when an APGAR record exists, each holding the record's value or `None` |
| Dashboard.CombinedVerdictDefined | neonatology/views.py:86-97 | the dashboard verdict raises exactly when an existing record has no value in a checked field, and then with `TypeError` |
| Dashboard.StatusImpliesAbnormal | neonatology/views.py:74-97 | a hospitalisation or monitoring status always comes with an abnormal verdict |
| Dashboard.NoParametryNormalStatusLowWeightVerdict | neonatology/views.py:82-97 | without a measurement and with a passing APGAR score, the status is normal but the verdict is a low weight of 0 kg |
| Dashboard.Assess | neonatology/views.py:70-99 | a row's status comes from the latest records, its verdict is the verdict of the `combined` data of those records, a non-normal status comes with an abnormal verdict, and the row exists exactly when that verdict does not raise |
| Dashboard.Raporty | neonatology/views.py:65-101 | the dashboard succeeds exactly when every newborn's row does, then lists the rows in order; otherwise it fails with the first newborn's error |
| Dashboard.DodajVerdict | neonatology/views.py:44-45 | the verdict of the merged forms is the threshold decision on the submitted weight, 5-minute APGAR and SpO2 |
| Dashboard.SavedRecordsVerdict | neonatology/views.py:35-45 | the `combined` data built from the saved records gets the same verdict as the merged form data |
| Dashboard.DodajAgreesWithRaporty | neonatology/views.py:35-45 | once saved as the latest records, the dashboard shows for the newborn the verdict given when it was added, with the status of those records |
| ImportAll.ImportMatki | neonatology/management/commands/import_all_csv.py:10-25 | existing mothers stay unchanged, and every dictionary entry names a stored mother |
| ImportAll.MatkiKeys | neonatology/management/commands/import_all_csv.py:14-23 | after the pass, the stored PESELs are the old ones plus those of the rows |
| ImportAll.MatkaDictKeys | neonatology/management/commands/import_all_csv.py:14-24 | the mother dictionary's ids are exactly the rows' ids |
| ImportAll.MatkiFirstRowWins | neonatology/management/commands/import_all_csv.py:15-23 | a new mother is created from the first row with her PESEL and has no serological conflict |
| ImportAll.MatkaDictLastRowWins | neonatology/management/commands/import_all_csv.py:24 | an id maps to the PESEL of its last row |
| ImportAll.ImportNoworodki | neonatology/management/commands/import_all_csv.py:27-43 | existing newborns stay unchanged, dictionary entries name stored newborns, and every new newborn's mother came from the mother dictionary |
| ImportAll.NoworodkiKeys | neonatology/management/commands/import_all_csv.py:31-41 | the stored (name, birth date) keys are the old ones plus those of rows whose mother id is known |
| ImportAll.DzieckoDictKeys | neonatology/management/commands/import_all_csv.py:31-42 | the newborn dictionary's ids are exactly those of rows whose mother id is known |
| ImportAll.NoworodkiFirstRowWins | neonatology/management/commands/import_all_csv.py:34-41 | a new newborn is created from the first linked row with its key, with that row's mother |
| ImportAll.DzieckoDictLastRowWins | neonatology/management/commands/import_all_csv.py:42 | a newborn id maps to the key of its last linked row |
| ImportAll.ImportPomiary | neonatology/management/commands/import_all_csv.py:45-64 | existing measurements stay unchanged; new ones belong to a known newborn and carry no doctor, not premature, 30 breaths per minute and 95 % SpO2 |
| ImportAll.PomiaryKeys | neonatology/management/commands/import_all_csv.py:48-63 | the stored (newborn, time) keys are the old ones plus those of rows whose newborn id is known |
| ImportAll.PomiaryFirstRowWins | neonatology/management/commands/import_all_csv.py:51-63 | a new measurement is built from the first row with its key, weight in grams divided by 1000 |
| ImportAll.Pivot | neonatology/management/commands/import_all_csv.py:67-76 | the pivot's ids are listed once each, and exactly the ids with scores |
| ImportAll.PivotIds | neonatology/management/commands/import_all_csv.py:70-76 | the pivot's ids are exactly the rows' ids |
| ImportAll.PivotMinutes | neonatology/management/commands/import_all_csv.py:74-76 | a minute is recorded for an id exactly when some row gives that id and minute |
| ImportAll.PivotLastScoreWins | neonatology/management/commands/import_all_csv.py:76 | a repeated (id, minute) keeps the score of its last row |
| ImportAll.PivotOrder | neonatology/management/commands/import_all_csv.py:74-78 | ids are visited in the order of their first appearance, as Python dictionaries iterate |
| ImportAll.CreateApgar | neonatology/management/commands/import_all_csv.py:78-90 | existing APGAR records stay unchanged, and every new one comes from a mapped id with its scores |
| ImportAll.ApgarFirstIdWins | neonatology/management/commands/import_all_csv.py:78-90 | the first id with a given (newborn, 1-minute score) key creates that record |
| ImportAll.ImportedApgarScores | neonatology/management/commands/import_all_csv.py:83-88 | an imported 5- or 10-minute score is absent exactly when no row gave it, and otherwise is the last row's score |
| ImportAll.ImportAllCsv | neonatology/management/commands/import_all_csv.py:9-93 | the import only adds records, keeps every stored link between tables intact, and every imported measurement has 95 % SpO2 |
| ImportAll.ImportedParametryNeverLowOxygen | neonatology/management/commands/import_all_csv.py:51-62 | an imported measurement never triggers the oxygen warning, and raises the monitoring alarm only through low weight |
| PyValues.Strip | import_grupy_krwi.py:29 | `strip()` returns a slice of the text with only whitespace cut off at either end and no whitespace left at its ends |
| BloodGroups.Decide | import_grupy_krwi.py:26-50 | a row ends the script exactly when the id cell is `None`, or the id is an integer and the group cell is `None`; it is bad data exactly when it does not end the script and a column is missing or the id is not an integer; it is not found exactly when the id is not stored; and it is written exactly when the stored group is empty or differs from the trimmed text |
| BloodGroups.StepEffects | import_grupy_krwi.py:26-57 | bad data and missing newborns only bump their counter, a skip changes nothing, an abort stops the pass, and an update writes that newborn's trimmed group and bumps the update counter |
| BloodGroups.StepFrame | import_grupy_krwi.py:33-39 | a row never adds or removes newborns or touches another newborn, leaves a found newborn holding the row's trimmed group, and raises at most one counter by one |
| BloodGroups.RunBounds | import_grupy_krwi.py:15-50 | the set of newborns is unchanged and the three counters together never exceed the number of rows |
| BloodGroups.FirstAbort | import_grupy_krwi.py:25-57 | the position of the first row that ends the script (a `None` id cell, or an integer id with a `None` group cell), or the end |
| BloodGroups.RunStopsAtAbort | import_grupy_krwi.py:52-57 | the script ends early exactly when some row has a `None` id cell, or an integer id with a `None` group cell; then only the rows before the first such row have effect |
| BloodGroups.RunFinalStore | import_grupy_krwi.py:25-57 | afterwards each newborn holds the trimmed group of its last well-formed row that was read, or its old group |
| BloodGroups.RerunSameStore | import_grupy_krwi.py:25-57 | a second run over the same file leaves every stored group as it was |
| BloodGroups.RerunFixed | import_grupy_krwi.py:25-57 | the store a run leaves is unchanged by running the same rows over it again |
| BloodGroups.BlankGroupAlwaysWritten | import_grupy_krwi.py:36-39 | a found row with a blank trimmed group is written, and counted, on every run |
| BloodGroups.RerunWritesNothing | import_grupy_krwi.py:36-42 | when each newborn's rows agree on a non-blank group, a second run writes nothing and counts no updates |
| BloodGroups.RerunSkipsSettledNewborn | import_grupy_krwi.py:25-42 | on a second run, a newborn whose well-formed rows before the first aborting row all carry one non-blank trimmed group is never rewritten, whatever the other rows hold |
| BloodGroups.FirstRunSettlesNewborn | import_grupy_krwi.py:25-39 | after one run, a newborn whose rows read all carry one group holds exactly that group |
| BloodGroups.SecondRunKeepsNewborn | import_grupy_krwi.py:25-39 | a later run over the same rows leaves such a newborn holding that group at every row before the first aborting row |
| BloodGroups.LastGroupUniform | import_grupy_krwi.py:36-39 | when all well-formed rows for a newborn carry one group, the last group written for it is that group or none |

## Left out

- HTTP handling, authentication, templates, messages and the `index`, login, logout and details views: these are framework plumbing with no decision logic.
- The validity of the `dodaj_noworodka` forms, and its `except` branch around the saves: Django's form validation and database errors are not modelled. The model starts from valid cleaned data.
- Verdict.WarningText: Python's `repr` of a float in the weight warning is the parameter `showFloat`, assumed only to produce one line. The exact digits are not modelled.
- PyValues.Float and PyValues.Int: text values give `TextNotParsed` instead of Python's parsing of numeric strings. No call site puts text under a measurement key.
- Float arithmetic (the weight comparison and grams / 1000) is done on exact reals.
- ImportAll.ImportPomiary: the stored `data_pomiaru` is taken to be the CSV value, so a second import finds the record under (newborn, CSV time). The `auto_now_add=True` in neonatology/models.py:22 would overwrite it with the insert time on creation, so a re-import would add a duplicate. That models.py is out of date with the rest of the code (it has no `Matka` model and no blood-group fields), so the model follows the import command's lookup.
- Dashboard.Latest: a tie between equal timestamps is not resolved, because the database promises no order among them.
- Opening and parsing the CSV files, `int()`/`float()` of CSV cells in `import_all_csv` and the progress messages: rows arrive already parsed. A malformed cell there would end the command; this is not modelled.
- ImportAll.ImportedApgar: `timezone.now()` is one parameter `now`, where the command reads the clock once per newborn.
- `get_or_create` raising `MultipleObjectsReturned`: this cannot happen in the model, because each table is a map keyed by the lookup fields.
- ImportAll.ImportAllCsv: the 1-minute APGAR lookup key may be `None`; the model keys it as an `Option`, without the database's NULL-matching rules.
- The serological-conflict logic, record history, restore and edit views: none of these exist in the code modelled. Mothers are imported with the conflict flag false.
- `import_csv` and `create_superuser`: these are other commands, not part of this model.
- The blood-group script's file-not-found branch and its printed summary: the model returns the counters and an `aborted` flag instead. The summary is not printed when `aborted` holds.
- BloodGroups.Decide: `int()` of the id cell is abstracted to "integer or not". The model does not parse cell text.

=== FILE: basics.dfy ===
/** Small shared vocabulary: optional values, results and dictionary lookup. */
module Basics {

  /** A value that may be absent: Python's `None` or a missing record. */
  datatype Option<T> = None | Some(value: T)

  /** The outcome of a computation that may raise. */
  datatype Result<T, E> = Ok(value: T) | Err(error: E)

  /** Python's `d.get(k)` on a dictionary. */
  function Lookup<K, V>(m: map<K, V>, k: K): (r: Option<V>)
    ensures r.Some? <==> k in m
    ensures r.Some? ==> r.value == m[k]
  {
    if k in m then Some(m[k]) else None
  }
}

=== FILE: blood_groups.dfy ===
/** The script import_grupy_krwi.py: one pass over the rows of noworodki.csv that
    copies each row's trimmed blood group onto the stored newborn with that id,
    counting updated rows, rows whose newborn is missing, and malformed rows. */
module BloodGroups {
  import opened Basics
  import opened PyValues

  /** The `id_noworodka` cell as `int(row['id_noworodka'])` sees it: the column
      missing from the header, no value (a short row), not an integer, or an integer. */
  datatype IdCell = IdNoColumn | IdNoValue | IdNotInteger | IdValue(n: int)

  /** The `grupa_krwi` cell: column missing, no value (a short row), or text. */
  datatype GroupCell = GroupNoColumn | GroupNoValue | GroupText(s: string)

  datatype CsvRow = CsvRow(id: IdCell, grupa: GroupCell)

  /** The stored blood group (`Dziecko.grupa_krwi`) of every newborn, by id. */
  type Store = map<int, Option<string>>

  /** What one row does. */
  datatype Outcome =
    | Updated(n: int, group: string)   // the stored group is (re)written
    | Skipped                          // the newborn already has this group
    | NotFound                         // no newborn with this id
    | BadData                          // KeyError or ValueError, caught per row
    | Aborted                          // TypeError or AttributeError, which ends the script

  /** A row with an integer id and a blood-group text. */
  predicate WellFormed(row: CsvRow)
  {
    row.id.IdValue? && row.grupa.GroupText?
  }

  /** A row whose `None` cell raises an exception only the outer handler catches. */
  predicate Aborts(row: CsvRow)
  {
    row.id.IdNoValue? || (row.id.IdValue? && row.grupa.GroupNoValue?)
  }

  /** Python's falsiness of a stored group: `None` or the empty string. */
  predicate Blank(g: Option<string>)
  {
    g.None? || g.value == ""
  }

  /** The decision for one row against the current store. */
  function Decide(store: Store, row: CsvRow): (r: Outcome)
    ensures r.Aborted? <==> Aborts(row)
    ensures r.BadData? <==> !Aborts(row) && !WellFormed(row)
    ensures WellFormed(row) ==> (r.NotFound? <==> row.id.n !in store)
    ensures r.Updated? ==> WellFormed(row) && r.n == row.id.n && r.n in store && r.group == Strip(row.grupa.s)
    ensures WellFormed(row) && row.id.n in store ==>
      (r.Updated? <==> Blank(store[row.id.n]) || store[row.id.n] != Some(Strip(row.grupa.s)))
  {
    match row.id
    case IdNoColumn => BadData
    case IdNotInteger => BadData
    case IdNoValue => Aborted
    case IdValue(n) =>
      match row.grupa
      case GroupNoColumn => BadData
      case GroupNoValue => Aborted
      case GroupText(s) =>
        var g := Strip(s);
        if n !in store then NotFound
        else if Blank(store[n]) || store[n].value != g then Updated(n, g)
        else Skipped
  }

  /** The three counters the script prints. */
  datatype Tally = Tally(updated: nat, notFound: nat, bad: nat)

  function Total(t: Tally): nat
  {
    t.updated + t.notFound + t.bad
  }

  /** The state between rows; once `aborted`, later rows are not read. */
  datatype Pass = Pass(store: Store, tally: Tally, aborted: bool)

  /** One pass of the row loop. */
  function Step(p: Pass, row: CsvRow): Pass
  {
    if p.aborted then p
    else
      match Decide(p.store, row)
      case Updated(n, g) => Pass(p.store[n := Some(g)], p.tally.(updated := p.tally.updated + 1), false)
      case Skipped => p
      case NotFound => p.(tally := p.tally.(notFound := p.tally.notFound + 1))
      case BadData => p.(tally := p.tally.(bad := p.tally.bad + 1))
      case Aborted => p.(aborted := true)
  }

  /** Once the script has stopped nothing changes. Otherwise a short row stops it;
      a malformed row only counts as bad data; a row for a missing newborn only
      counts as not found; a row repeating the newborn's non-blank group changes
      nothing; and any other found row writes that newborn's trimmed group and
      counts it as updated. */
  lemma StepEffects(p: Pass, row: CsvRow)
    ensures p.aborted ==> Step(p, row) == p
    ensures !p.aborted && Aborts(row) ==> Step(p, row) == p.(aborted := true)
    ensures !p.aborted && !Aborts(row) && !WellFormed(row) ==>
      Step(p, row) == p.(tally := p.tally.(bad := p.tally.bad + 1))
    ensures !p.aborted && WellFormed(row) && row.id.n !in p.store ==>
      Step(p, row) == p.(tally := p.tally.(notFound := p.tally.notFound + 1))
    ensures (!p.aborted && WellFormed(row) && row.id.n in p.store
             && Strip(row.grupa.s) != "" && p.store[row.id.n] == Some(Strip(row.grupa.s))) ==>
      Step(p, row) == p
    ensures (!p.aborted && WellFormed(row) && row.id.n in p.store
             && (Strip(row.grupa.s) == "" || p.store[row.id.n] != Some(Strip(row.grupa.s)))) ==>
      && Step(p, row).store == p.store[row.id.n := Some(Strip(row.grupa.s))]
      && Step(p, row).tally == p.tally.(updated := p.tally.updated + 1)
      && !Step(p, row).aborted
  {
  }

  /** Whatever the row, the set of newborns is unchanged, every other newborn keeps
      its group, a found well-formed row leaves its newborn holding exactly the
      trimmed group, and at most one counter goes up by one. */
  lemma StepFrame(p: Pass, row: CsvRow)
    ensures Step(p, row).store.Keys == p.store.Keys
    ensures forall k :: k in p.store && (!WellFormed(row) || k != row.id.n) ==> Step(p, row).store[k] == p.store[k]
    ensures !p.aborted && WellFormed(row) && row.id.n in p.store ==>
      Step(p, row).store[row.id.n] == Some(Strip(row.grupa.s))
    ensures Total(p.tally) <= Total(Step(p, row).tally) <= Total(p.tally) + 1
  {
  }

  /** The whole loop over the rows, from counters at zero. */
  function Run(store: Store, rows: seq<CsvRow>): Pass
    decreases |rows|
  {
    if |rows| == 0 then Pass(store, Tally(0, 0, 0), false)
    else Step(Run(store, rows[..|rows| - 1]), rows[|rows| - 1])
  }

  /** The pass never adds or removes a newborn, and each row bumps at most one counter. */
  lemma {:induction false} RunBounds(store: Store, rows: seq<CsvRow>)
    ensures Run(store, rows).store.Keys == store.Keys
    ensures Total(Run(store, rows).tally) <= |rows|
    decreases |rows|
  {
    if |rows| > 0 {
      RunBounds(store, rows[..|rows| - 1]);
      StepFrame(Run(store, rows[..|rows| - 1]), rows[|rows| - 1]);
    }
  }

  /** The position of the first row that ends the script, or `|rows|`. */
  function FirstAbort(rows: seq<CsvRow>): (f: nat)
    ensures f <= |rows|
    ensures forall i :: 0 <= i < f ==> !Aborts(rows[i])
    ensures f < |rows| ==> Aborts(rows[f])
    decreases |rows|
  {
    if |rows| == 0 then 0
    else
      var front := rows[..|rows| - 1];
      var f := FirstAbort(front);
      if f < |front| then f else if Aborts(rows[|rows| - 1]) then |front| else |rows|
  }

  /** The trimmed group of the last well-formed row for newborn `n`, if any. */
  function LastGroup(rows: seq<CsvRow>, n: int): Option<string>
    decreases |rows|
  {
    if |rows| == 0 then None
    else
      var row := rows[|rows| - 1];
      if WellFormed(row) && row.id.n == n then Some(Strip(row.grupa.s)) else LastGroup(rows[..|rows| - 1], n)
  }

  /** The script ends early exactly when some row aborts, and then only the rows
      before the first such row have had any effect. */
  lemma {:induction false} RunStopsAtAbort(store: Store, rows: seq<CsvRow>)
    ensures Run(store, rows).aborted <==> FirstAbort(rows) < |rows|
    ensures Run(store, rows[..FirstAbort(rows)]) == Run(store, rows).(aborted := false)
    decreases |rows|
  {
    if |rows| > 0 {
      var front := rows[..|rows| - 1];
      RunStopsAtAbort(store, front);
      if FirstAbort(front) < |front| {
        StopsAfterAbort(store, rows);
      } else {
        StopsAtLast(store, rows);
      }
    }
  }

  /** The inductive step of `RunStopsAtAbort` when an earlier row already aborted. */
  lemma StopsAfterAbort(store: Store, rows: seq<CsvRow>)
    requires |rows| > 0
    requires var front := rows[..|rows| - 1];
      && FirstAbort(front) < |front| && Run(store, front).aborted
      && Run(store, front[..FirstAbort(front)]) == Run(store, front).(aborted := false)
    ensures Run(store, rows).aborted && FirstAbort(rows) < |rows|
    ensures Run(store, rows[..FirstAbort(rows)]) == Run(store, rows).(aborted := false)
  {
    var front := rows[..|rows| - 1];
    var f := FirstAbort(front);
    assert Run(store, rows) == Run(store, front);
    assert rows[..f] == front[..f];
  }

  /** The inductive step of `RunStopsAtAbort` when no earlier row aborted. */
  lemma StopsAtLast(store: Store, rows: seq<CsvRow>)
    requires |rows| > 0
    requires var front := rows[..|rows| - 1];
      && FirstAbort(front) == |front| && !Run(store, front).aborted
    ensures Run(store, rows).aborted <==> FirstAbort(rows) < |rows|
    ensures Run(store, rows[..FirstAbort(rows)]) == Run(store, rows).(aborted := false)
  {
    var front := rows[..|rows| - 1];
    var last := rows[|rows| - 1];
    var p := Run(store, front);
    if Aborts(last) {
      assert Run(store, rows) == p.(aborted := true);
      assert rows[..FirstAbort(rows)] == front;
    } else {
      assert !Run(store, rows).aborted;
      assert rows[..FirstAbort(rows)] == rows;
    }
  }

  /** After the pass, each newborn holds the trimmed group of the last well-formed
      row for it that was read, or its old group when there was none. */
  lemma {:induction false} RunFinalStore(store: Store, rows: seq<CsvRow>, n: int)
    requires n in store
    ensures n in Run(store, rows).store
    ensures Run(store, rows).store[n] ==
      match LastGroup(rows[..FirstAbort(rows)], n)
      case Some(g) => Some(g)
      case None => store[n]
    decreases |rows|
  {
    RunBounds(store, rows);
    RunStopsAtAbort(store, rows);
    var e := rows[..FirstAbort(rows)];
    assert e[..FirstAbort(e)] == e;
    RunFinalStoreNoAbort(store, e, n);
  }

  lemma {:induction false} RunFinalStoreNoAbort(store: Store, rows: seq<CsvRow>, n: int)
    requires n in store
    requires FirstAbort(rows) == |rows|
    ensures n in Run(store, rows).store
    ensures Run(store, rows).store[n] ==
      match LastGroup(rows, n)
      case Some(g) => Some(g)
      case None => store[n]
    decreases |rows|
  {
    RunBounds(store, rows);
    if |rows| > 0 {
      var front := rows[..|rows| - 1];
      var row := rows[|rows| - 1];
      assert FirstAbort(front) == |front|;
      RunFinalStoreNoAbort(store, front, n);
      RunStopsAtAbort(store, front);
      var p := Run(store, front);
      assert !p.aborted && n in p.store;
      assert Run(store, rows) == Step(p, row);
      StepFrame(p, row);
      if WellFormed(row) && row.id.n == n {
        assert LastGroup(rows, n) == Some(Strip(row.grupa.s));
      } else {
        assert LastGroup(rows, n) == LastGroup(front, n);
      }
    }
  }

  /** Running the script a second time over the same file leaves every stored group
      as the first run left it. */
  lemma RerunSameStore(store: Store, rows: seq<CsvRow>)
    ensures Run(Run(store, rows).store, rows).store == Run(store, rows).store
  {
    RerunFixed(store, Run(store, rows).store, rows);
  }

  /** The store a run leaves is a fixed point of running the same rows again. */
  lemma RerunFixed(store: Store, s1: Store, rows: seq<CsvRow>)
    requires s1 == Run(store, rows).store
    ensures Run(s1, rows).store == s1
  {
    RunBounds(store, rows);
    RunBounds(s1, rows);
    forall n | n in s1 ensures Run(s1, rows).store[n] == s1[n] {
      RerunFixedAt(store, s1, rows, n);
    }
  }

  /** `RerunFixed` for one newborn. */
  lemma RerunFixedAt(store: Store, s1: Store, rows: seq<CsvRow>, n: int)
    requires s1 == Run(store, rows).store && n in s1
    ensures n in Run(s1, rows).store && Run(s1, rows).store[n] == s1[n]
  {
    RunBounds(store, rows);
    RunFinalStore(store, rows, n);
    RunFinalStore(s1, rows, n);
  }

  /** All well-formed rows for one newborn carry the same trimmed group. */
  ghost predicate Consistent(rows: seq<CsvRow>)
  {
    forall i, j ::
      0 <= i < |rows| && 0 <= j < |rows| && WellFormed(rows[i]) && WellFormed(rows[j]) && rows[i].id.n == rows[j].id.n
      ==> Strip(rows[i].grupa.s) == Strip(rows[j].grupa.s)
  }

  /** Every well-formed row of a newborn in the store holds a non-blank group that
      the store already has. */
  ghost predicate Settled(store: Store, rows: seq<CsvRow>)
  {
    forall i :: 0 <= i < |rows| && WellFormed(rows[i]) && rows[i].id.n in store ==>
      Strip(rows[i].grupa.s) != "" && store[rows[i].id.n] == Some(Strip(rows[i].grupa.s))
  }

  /** Over a settled store, every row is skipped, missing or malformed: nothing is written. */
  lemma {:induction false} SettledRunWritesNothing(store: Store, rows: seq<CsvRow>)
    requires Settled(store, rows)
    ensures Run(store, rows).store == store && Run(store, rows).tally.updated == 0
    decreases |rows|
  {
    if |rows| > 0 {
      var front := rows[..|rows| - 1];
      var last := rows[|rows| - 1];
      assert Settled(store, front) by {
        forall i | 0 <= i < |front| ensures front[i] == rows[i] { }
      }
      SettledRunWritesNothing(store, front);
      var p := Run(store, front);
      assert Run(store, rows) == Step(p, last);
      assert !Decide(store, last).Updated? by {
        if WellFormed(last) && last.id.n in store {
          assert store[last.id.n] == Some(Strip(last.grupa.s));
          assert !Blank(store[last.id.n]);
        }
      }
      assert Step(p, last).store == p.store;
      assert Step(p, last).tally.updated == p.tally.updated;
    } else {
      assert Run(store, rows) == Pass(store, Tally(0, 0, 0), false);
    }
  }

  /** A well-formed row with a blank trimmed group whose newborn exists is written
      (and counted) on every run, since an empty stored group always counts as missing. */
  lemma BlankGroupAlwaysWritten(store: Store, row: CsvRow)
    requires WellFormed(row) && row.id.n in store && Strip(row.grupa.s) == ""
    ensures Decide(store, row) == Updated(row.id.n, "")
  {
  }

  /** When every row for a newborn carries the same non-blank group, a second run
      over the same file writes nothing. */
  lemma RerunWritesNothing(store: Store, rows: seq<CsvRow>)
    requires Consistent(rows)
    requires forall i :: 0 <= i < |rows| && WellFormed(rows[i]) ==> Strip(rows[i].grupa.s) != ""
    ensures Run(Run(store, rows).store, rows).store == Run(store, rows).store
    ensures Run(Run(store, rows).store, rows).tally.updated == 0
  {
    var s1 := Run(store, rows).store;
    FirstRunSettles(store, rows);
    RunStopsAtAbort(s1, rows);
    SettledRunWritesNothing(s1, rows[..FirstAbort(rows)]);
  }

  /** Under the premises of `RerunWritesNothing`, the first run leaves the store
      settled for every row it read. */
  lemma FirstRunSettles(store: Store, rows: seq<CsvRow>)
    requires Consistent(rows)
    requires forall i :: 0 <= i < |rows| && WellFormed(rows[i]) ==> Strip(rows[i].grupa.s) != ""
    ensures Settled(Run(store, rows).store, rows[..FirstAbort(rows)])
  {
    var s1 := Run(store, rows).store;
    var e := rows[..FirstAbort(rows)];
    RunBounds(store, rows);
    forall i | 0 <= i < |e| && WellFormed(e[i]) && e[i].id.n in s1
      ensures Strip(e[i].grupa.s) != "" && s1[e[i].id.n] == Some(Strip(e[i].grupa.s))
    {
      var n := e[i].id.n;
      assert e[i] == rows[i];
      RunFinalStore(store, rows, n);
      LastGroupIsSome(e, i);
      var j :| i <= j < |e| && WellFormed(e[j]) && e[j].id.n == n && LastGroup(e, n) == Some(Strip(e[j].grupa.s));
      assert e[j] == rows[j];
    }
  }

  /** Row by row: a newborn whose rows read so far all carry one non-blank group is
      never rewritten by a second run, whatever the other newborns' rows hold. */
  lemma RerunSkipsSettledNewborn(store: Store, rows: seq<CsvRow>, n: int, g: string, i: int)
    requires n in store && g != ""
    requires forall j :: 0 <= j < FirstAbort(rows) && WellFormed(rows[j]) && rows[j].id.n == n ==> Strip(rows[j].grupa.s) == g
    requires 0 <= i < FirstAbort(rows) && WellFormed(rows[i]) && rows[i].id.n == n
    ensures !Decide(Run(Run(store, rows).store, rows[..i]).store, rows[i]).Updated?
  {
    FirstRunSettlesNewborn(store, rows, n, g, i);
    SecondRunKeepsNewborn(Run(store, rows).store, rows, n, g, i);
  }

  /** The first run leaves such a newborn holding its group. */
  lemma FirstRunSettlesNewborn(store: Store, rows: seq<CsvRow>, n: int, g: string, i: int)
    requires n in store
    requires forall j :: 0 <= j < FirstAbort(rows) && WellFormed(rows[j]) && rows[j].id.n == n ==> Strip(rows[j].grupa.s) == g
    requires 0 <= i < FirstAbort(rows) && WellFormed(rows[i]) && rows[i].id.n == n
    ensures n in Run(store, rows).store && Run(store, rows).store[n] == Some(g)
  {
    var e := rows[..FirstAbort(rows)];
    RunFinalStore(store, rows, n);
    assert e[i] == rows[i];
    LastGroupIsSome(e, i);
    var j :| i <= j < |e| && WellFormed(e[j]) && e[j].id.n == n && LastGroup(e, n) == Some(Strip(e[j].grupa.s));
    assert e[j] == rows[j];
  }

  /** A second run still finds such a newborn holding its group when it reaches row `i`. */
  lemma SecondRunKeepsNewborn(s1: Store, rows: seq<CsvRow>, n: int, g: string, i: int)
    requires n in s1 && s1[n] == Some(g)
    requires forall j :: 0 <= j < FirstAbort(rows) && WellFormed(rows[j]) && rows[j].id.n == n ==> Strip(rows[j].grupa.s) == g
    requires 0 <= i < FirstAbort(rows)
    ensures n in Run(s1, rows[..i]).store && Run(s1, rows[..i]).store[n] == Some(g)
  {
    var front := rows[..i];
    NoAbortBefore(rows, i);
    RunFinalStoreNoAbort(s1, front, n);
    forall k | 0 <= k < |front| && WellFormed(front[k]) && front[k].id.n == n
      ensures Strip(front[k].grupa.s) == g
    {
      assert front[k] == rows[k];
    }
    LastGroupUniform(front, n, g);
  }

  /** The rows before the first aborting row do not abort. */
  lemma NoAbortBefore(rows: seq<CsvRow>, i: int)
    requires 0 <= i <= FirstAbort(rows)
    ensures FirstAbort(rows[..i]) == i
  {
  }

  /** When every well-formed row for `n` carries group `g`, the last group for `n`
      is `g` or there is none. */
  lemma {:induction false} LastGroupUniform(rows: seq<CsvRow>, n: int, g: string)
    requires forall k :: 0 <= k < |rows| && WellFormed(rows[k]) && rows[k].id.n == n ==> Strip(rows[k].grupa.s) == g
    ensures LastGroup(rows, n) == None || LastGroup(rows, n) == Some(g)
    decreases |rows|
  {
    if |rows| > 0 {
      var front := rows[..|rows| - 1];
      forall k | 0 <= k < |front| && WellFormed(front[k]) && front[k].id.n == n
        ensures Strip(front[k].grupa.s) == g
      {
        assert front[k] == rows[k];
      }
      LastGroupUniform(front, n, g);
    }
  }

  /** With a well-formed row for `n` at `i`, the last group for `n` is that of some
      well-formed row for `n` at or after `i`. */
  lemma {:induction false} LastGroupIsSome(rows: seq<CsvRow>, i: int)
    requires 0 <= i < |rows| && WellFormed(rows[i])
    ensures exists j ::
      && i <= j < |rows| && WellFormed(rows[j]) && rows[j].id.n == rows[i].id.n
      && LastGroup(rows, rows[i].id.n) == Some(Strip(rows[j].grupa.s))
    decreases |rows|
  {
    var front := rows[..|rows| - 1];
    var row := rows[|rows| - 1];
    if !(WellFormed(row) && row.id.n == rows[i].id.n) {
      assert i < |front|;
      LastGroupIsSome(front, i);
      var j :| i <= j < |front| && WellFormed(front[j]) && front[j].id.n == rows[i].id.n
        && LastGroup(front, rows[i].id.n) == Some(Strip(front[j].grupa.s));
      assert front[j] == rows[j];
    }
  }
}

=== FILE: dashboard.dfy ===
/** The pure logic inside the two views of neonatology/views.py that feed
    `sprawdz_parametry`: the dashboard `raporty` (latest records, triage status,
    the partial dictionary it assembles) and the merged form data of
    `dodaj_noworodka`. */
module Dashboard {
  import opened Basics
  import opened PyValues
  import opened Records
  import opened Verdict

  // ---------------------------------------------------------------- latest records

  /** `order_by('-data_pomiaru').first()`: a record with the greatest timestamp, or
      none for no records. Which of several equally recent records is chosen is left
      open, as the database leaves it open. */
  function Latest<T>(rs: seq<T>, stamp: T -> Timestamp): (r: Option<T>)
    ensures r.None? <==> |rs| == 0
    ensures r.Some? ==> r.value in rs && forall x :: x in rs ==> stamp(x) <= stamp(r.value)
  {
    if |rs| == 0 then None
    else
      var rest := Latest(rs[1..], stamp);
      if rest.None? || stamp(rest.value) <= stamp(rs[0]) then Some(rs[0]) else rest
  }

  /** A record strictly newer than all others is the one `Latest` picks. */
  lemma LatestOfNewest<T>(older: seq<T>, newest: T, stamp: T -> Timestamp)
    requires forall x :: x in older ==> stamp(x) < stamp(newest)
    ensures Latest(older + [newest], stamp) == Some(newest)
  {
    assert newest in older + [newest];
  }

  // ---------------------------------------------------------------- triage status

  /** The dashboard status; `Label` gives the text the view shows. */
  datatype Status = Hospitalizacja | Monitorowanie | ParametryWNormie

  function Label(s: Status): string
  {
    match s
    case Hospitalizacja => "Hospitalizacja"
    case Monitorowanie => "Monitorowanie"
    case ParametryWNormie => "Parametry w normie"
  }

  /** The three statuses show as three different texts. */
  lemma LabelsDistinct(s: Status, t: Status)
    ensures Label(s) == Label(t) <==> s == t
  {
    if s != t {
      assert |Label(s)| != |Label(t)|;
    }
  }

  function Severity(s: Status): nat
  {
    match s
    case Hospitalizacja => 2
    case Monitorowanie => 1
    case ParametryWNormie => 0
  }

  /** The latest APGAR record has a 5-minute score, and it is below the threshold. */
  predicate ApgarAlarm(apgar: Option<Apgar>)
  {
    apgar.Some? && apgar.value.apgar5Min.Some? && apgar.value.apgar5Min.value < ApgarMin
  }

  /** The latest parameters record has a weight or a saturation below its threshold. */
  predicate ParametryAlarm(param: Option<Parametry>)
  {
    param.Some?
    && ((param.value.wagaKg.Some? && param.value.wagaKg.value < WeightMinKg)
        || (param.value.natlenienieSpO2.Some? && param.value.natlenienieSpO2.value < SpO2Min))
  }

  /** The statuses the records call for; "normal" is always among them. */
  ghost function Alarms(param: Option<Parametry>, apgar: Option<Apgar>): set<Status>
  {
    {ParametryWNormie}
    + (if ApgarAlarm(apgar) then {Hospitalizacja} else {})
    + (if ParametryAlarm(param) then {Monitorowanie} else {})
  }

  /** The status `raporty` shows: the most severe status the latest records call for. */
  function DeriveStatus(param: Option<Parametry>, apgar: Option<Apgar>): (s: Status)
    ensures s in Alarms(param, apgar)
    ensures forall t :: t in Alarms(param, apgar) ==> Severity(t) <= Severity(s)
  {
    if ApgarAlarm(apgar) then Hospitalizacja
    else if ParametryAlarm(param) then Monitorowanie
    else ParametryWNormie
  }

  /** The three cases of the status, read off the severity order. */
  lemma StatusCases(param: Option<Parametry>, apgar: Option<Apgar>, other: Option<Parametry>)
    ensures DeriveStatus(param, apgar) == Hospitalizacja <==> ApgarAlarm(apgar)
    ensures DeriveStatus(param, apgar) == Hospitalizacja <==> DeriveStatus(other, apgar) == Hospitalizacja
    ensures DeriveStatus(param, apgar) == Monitorowanie <==> !ApgarAlarm(apgar) && ParametryAlarm(param)
    ensures param.None? ==> DeriveStatus(param, apgar) != Monitorowanie
  {
  }

  // ---------------------------------------------------------------- the partial dictionary

  function OptFloat(x: Option<real>): PyValue
  {
    match x
    case Some(v) => PyFloat(v)
    case None => PyNone
  }

  function OptInt(x: Option<int>): PyValue
  {
    match x
    case Some(v) => PyInt(v)
    case None => PyNone
  }

  const ImieKey: string := "imie"

  /** The `combined` dictionary of `raporty`: a key is present only when the record
      it comes from exists, and it holds that record's value, `None` included. */
  function Combined(imie: Option<string>, param: Option<Parametry>, apgar: Option<Apgar>): (d: map<string, PyValue>)
    ensures WeightKey in d <==> param.Some?
    ensures SpO2Key in d <==> param.Some?
    ensures Apgar5Key in d <==> apgar.Some?
    ensures param.Some? ==> d[WeightKey] == OptFloat(param.value.wagaKg) && d[SpO2Key] == OptInt(param.value.natlenienieSpO2)
    ensures apgar.Some? ==> d[Apgar5Key] == OptInt(apgar.value.apgar5Min)
  {
    var d0: map<string, PyValue> := if imie.Some? then map[ImieKey := PyStr(imie.value)] else map[];
    var d1 := if param.Some? then d0[WeightKey := OptFloat(param.value.wagaKg)][SpO2Key := OptInt(param.value.natlenienieSpO2)] else d0;
    if apgar.Some? then d1[Apgar5Key := OptInt(apgar.value.apgar5Min)] else d1
  }

  /** A verdict built from the dashboard dictionary exists exactly when no field it
      reads from an existing record is `None`. */
  lemma CombinedVerdictDefined(imie: Option<string>, param: Option<Parametry>, apgar: Option<Apgar>)
    ensures Sprawdz(Combined(imie, param, apgar)).Ok? <==>
      (param.Some? ==> param.value.wagaKg.Some? && param.value.natlenienieSpO2.Some?)
      && (apgar.Some? ==> apgar.value.apgar5Min.Some?)
    ensures Sprawdz(Combined(imie, param, apgar)).Err? ==> Sprawdz(Combined(imie, param, apgar)).error == TypeError
  {
  }

  /** A status other than "normal" comes with an abnormal verdict naming the reason,
      when both are computed from the same latest records. */
  lemma StatusImpliesAbnormal(imie: Option<string>, param: Option<Parametry>, apgar: Option<Apgar>)
    requires Sprawdz(Combined(imie, param, apgar)).Ok?
    ensures var v := Sprawdz(Combined(imie, param, apgar)).value;
      && (DeriveStatus(param, apgar) != ParametryWNormie ==> v.Abnormal?)
      && (DeriveStatus(param, apgar) == Hospitalizacja ==> LowApgar in v.warnings)
      && (DeriveStatus(param, apgar) == Monitorowanie ==>
            exists w :: w in v.warnings && (w.LowWeight? || w.LowOxygen?))
  {
    var m := Read(Combined(imie, param, apgar)).value;
    var v := Evaluate(m);
    if ApgarAlarm(apgar) {
      assert Violated(ApgarRule, m);
      assert LowApgar in v.warnings;
    } else if ParametryAlarm(param) {
      var p := param.value;
      if p.wagaKg.Some? && p.wagaKg.value < WeightMinKg {
        assert Violated(WeightRule, m);
        assert LowWeight(m.wagaKg) in v.warnings;
      } else {
        assert Violated(OxygenRule, m);
        assert LowOxygen(m.spO2) in v.warnings;
      }
    }
  }

  /** The converse fails for every newborn without parameters whose APGAR raises no
      alarm: the status is "normal" while the verdict warns of a 0.0 kg weight. */
  lemma NoParametryNormalStatusLowWeightVerdict(imie: Option<string>, apgar: Option<Apgar>)
    requires apgar.Some? ==> apgar.value.apgar5Min.Some? && apgar.value.apgar5Min.value >= ApgarMin
    ensures DeriveStatus(None, apgar) == ParametryWNormie
    ensures Sprawdz(Combined(imie, None, apgar)) == Ok(Abnormal([LowWeight(0.0)]))
  {
    var m := Read(Combined(imie, None, apgar)).value;
    assert m.wagaKg == 0.0 && m.spO2 == 100 && m.apgar5Min >= ApgarMin;
    var v := Evaluate(m);
    assert v.Abnormal?;
    assert LowWeight(0.0) in v.warnings;
    forall w | w in v.warnings ensures w == LowWeight(0.0) {
      assert RuleOf(w) in Fired(m);
    }
    assert v.warnings[0] == LowWeight(0.0);
    assert v.warnings == [LowWeight(0.0)];
  }

  // ---------------------------------------------------------------- one dashboard row

  /** A newborn as the dashboard sees it, with its stored records. */
  datatype Dziecko = Dziecko(imie: Option<string>, parametry: seq<Parametry>, apgar: seq<Apgar>)

  datatype StatusRow = StatusRow(status: Status, werdykt: Verdict)

  function LatestParametry(d: Dziecko): Option<Parametry>
  {
    Latest(d.parametry, ParametryStamp)
  }

  function LatestApgar(d: Dziecko): Option<Apgar>
  {
    Latest(d.apgar, ApgarStamp)
  }

  /** One iteration of the `raporty` loop. The status is that of the latest records;
      computing the verdict raises when the latest records hold a `None` it converts. */
  function Assess(d: Dziecko): (r: Result<StatusRow, PyError>)
    ensures r.Ok? ==> r.value.status == DeriveStatus(LatestParametry(d), LatestApgar(d))
    ensures r.Ok? && r.value.status != ParametryWNormie ==> r.value.werdykt.Abnormal?
    ensures r.Ok? <==> Sprawdz(Combined(d.imie, LatestParametry(d), LatestApgar(d))).Ok?
    ensures r.Ok? ==> r.value.werdykt == Sprawdz(Combined(d.imie, LatestParametry(d), LatestApgar(d))).value
  {
    var param := LatestParametry(d);
    var apgar := LatestApgar(d);
    match Sprawdz(Combined(d.imie, param, apgar))
    case Err(e) => Err(e)
    case Ok(v) =>
      StatusImpliesAbnormal(d.imie, param, apgar);
      Ok(StatusRow(DeriveStatus(param, apgar), v))
  }

  /** The whole `raporty` loop: one row per newborn, in order, unless some newborn's
      verdict raises, in which case the first such error ends the view. */
  function Raporty(dzieci: seq<Dziecko>): (r: Result<seq<StatusRow>, PyError>)
    ensures r.Ok? <==> forall i :: 0 <= i < |dzieci| ==> Assess(dzieci[i]).Ok?
    ensures r.Ok? ==> |r.value| == |dzieci| && forall i :: 0 <= i < |dzieci| ==> Assess(dzieci[i]) == Ok(r.value[i])
    ensures r.Err? ==> exists i :: FirstFailure(dzieci, i) && Assess(dzieci[i]) == Err(r.error)
  {
    if |dzieci| == 0 then Ok([])
    else
      match Assess(dzieci[0])
      case Err(e) =>
        assert FirstFailure(dzieci, 0);
        Err(e)
      case Ok(row) =>
        match Raporty(dzieci[1..])
        case Err(e) =>
          FirstFailureShift(dzieci, e);
          Err(e)
        case Ok(rows) =>
          RowsCons(dzieci, row, rows);
          Ok([row] + rows)
  }

  /** The rows of `raporty` for all newborns are the first one's row followed by
      the rows for the rest. */
  lemma RowsCons(dzieci: seq<Dziecko>, row: StatusRow, rows: seq<StatusRow>)
    requires |dzieci| > 0 && Assess(dzieci[0]) == Ok(row)
    requires |rows| == |dzieci| - 1 && forall i :: 0 <= i < |rows| ==> Assess(dzieci[1..][i]) == Ok(rows[i])
    ensures forall i :: 0 <= i < |dzieci| ==> Assess(dzieci[i]) == Ok(([row] + rows)[i])
  {
    forall i | 1 <= i < |dzieci| ensures Assess(dzieci[i]) == Ok(([row] + rows)[i]) {
      assert dzieci[i] == dzieci[1..][i - 1];
    }
  }

  lemma FirstFailureShift(dzieci: seq<Dziecko>, e: PyError)
    requires |dzieci| > 0 && Assess(dzieci[0]).Ok?
    requires exists i :: FirstFailure(dzieci[1..], i) && Assess(dzieci[1..][i]) == Err(e)
    ensures exists i :: FirstFailure(dzieci, i) && Assess(dzieci[i]) == Err(e)
  {
    var i :| FirstFailure(dzieci[1..], i) && Assess(dzieci[1..][i]) == Err(e);
    assert FirstFailure(dzieci, i + 1);
  }

  /** Newborn `i` is the first whose verdict raises. */
  ghost predicate FirstFailure(dzieci: seq<Dziecko>, i: int)
  {
    0 <= i < |dzieci| && Assess(dzieci[i]).Err? && forall j :: 0 <= j < i ==> Assess(dzieci[j]).Ok?
  }

  // ---------------------------------------------------------------- dodaj_noworodka

  /** The cleaned data of the three forms of `dodaj_noworodka`. */
  datatype DzieckoForm = DzieckoForm(imie: string, dataUrodzenia: string, plec: string, matka: Option<nat>)
  datatype ParametryForm = ParametryForm(
    wzrostCm: real, wagaKg: real, czyWczesniak: bool, obwodGlowyCm: real, oddechyNaMin: int, natlenienieSpO2: int)
  datatype ApgarForm = ApgarForm(apgar1Min: int, apgar5Min: int, apgar10Min: Option<int>)

  function DzieckoData(f: DzieckoForm): map<string, PyValue>
  {
    map[ImieKey := PyStr(f.imie), "data_urodzenia" := PyObject, "plec" := PyStr(f.plec),
        "matka" := if f.matka.Some? then PyObject else PyNone]
  }

  function ParametryData(f: ParametryForm): map<string, PyValue>
  {
    map["wzrost_cm" := PyFloat(f.wzrostCm), WeightKey := PyFloat(f.wagaKg), "czy_wczesniak" := PyBool(f.czyWczesniak),
        "obwod_glowy_cm" := PyFloat(f.obwodGlowyCm), "oddechy_na_min" := PyInt(f.oddechyNaMin),
        SpO2Key := PyInt(f.natlenienieSpO2)]
  }

  function ApgarData(f: ApgarForm): map<string, PyValue>
  {
    map["apgar_1min" := PyInt(f.apgar1Min), Apgar5Key := PyInt(f.apgar5Min), "apgar_10min" := OptInt(f.apgar10Min)]
  }

  /** The verdict of `dodaj_noworodka` on the merged form data: always defined, and
      the one the entered weight, APGAR-5 and saturation call for. */
  function DodajVerdict(df: DzieckoForm, pf: ParametryForm, af: ApgarForm): (r: Result<Verdict, PyError>)
    ensures r == Ok(Evaluate(Reading(pf.wagaKg, af.apgar5Min, pf.natlenienieSpO2)))
  {
    var combined := DzieckoData(df) + ParametryData(pf) + ApgarData(af);
    assert combined[WeightKey] == PyFloat(pf.wagaKg);
    assert combined[Apgar5Key] == PyInt(af.apgar5Min);
    assert combined[SpO2Key] == PyInt(pf.natlenienieSpO2);
    Sprawdz(combined)
  }

  /** The records `dodaj_noworodka` saves from the forms. */
  function SavedParametry(f: ParametryForm, at: Timestamp, lekarz: UserId): Parametry
  {
    Parametry(at, Some(lekarz), f.wzrostCm, Some(f.wagaKg), f.czyWczesniak, f.obwodGlowyCm, f.oddechyNaMin,
              Some(f.natlenienieSpO2))
  }

  function SavedApgar(f: ApgarForm, at: Timestamp, lekarz: UserId): Apgar
  {
    Apgar(at, Some(lekarz), Some(f.apgar1Min), Some(f.apgar5Min), f.apgar10Min)
  }

  /** Once the records just saved are the newest, the dashboard shows the same
      verdict `dodaj_noworodka` showed when they were entered, with a status that
      agrees with it. */
  lemma DodajAgreesWithRaporty(df: DzieckoForm, pf: ParametryForm, af: ApgarForm,
                               tParams: Timestamp, tApgar: Timestamp, lekarz: UserId,
                               olderParams: seq<Parametry>, olderApgar: seq<Apgar>)
    requires forall p :: p in olderParams ==> p.dataPomiaru < tParams
    requires forall a :: a in olderApgar ==> a.dataPomiaru < tApgar
    ensures var d := Dziecko(Some(df.imie), olderParams + [SavedParametry(pf, tParams, lekarz)],
                             olderApgar + [SavedApgar(af, tApgar, lekarz)]);
      && Assess(d).Ok?
      && Assess(d).value.werdykt == DodajVerdict(df, pf, af).value
      && Assess(d).value.status == DeriveStatus(Some(SavedParametry(pf, tParams, lekarz)), Some(SavedApgar(af, tApgar, lekarz)))
  {
    var p := SavedParametry(pf, tParams, lekarz);
    var a := SavedApgar(af, tApgar, lekarz);
    var d := Dziecko(Some(df.imie), olderParams + [p], olderApgar + [a]);
    LatestOfNewest(olderParams, p, ParametryStamp);
    LatestOfNewest(olderApgar, a, ApgarStamp);
    assert LatestParametry(d) == Some(p) && LatestApgar(d) == Some(a);
    SavedRecordsVerdict(df, pf, af, tParams, tApgar, lekarz);
  }

  /** The dashboard's `combined` data for the saved records gets the verdict the
      merged forms got. */
  lemma SavedRecordsVerdict(df: DzieckoForm, pf: ParametryForm, af: ApgarForm,
                            tParams: Timestamp, tApgar: Timestamp, lekarz: UserId)
    ensures Sprawdz(Combined(Some(df.imie), Some(SavedParametry(pf, tParams, lekarz)), Some(SavedApgar(af, tApgar, lekarz))))
      == DodajVerdict(df, pf, af)
  {
    var combined := Combined(Some(df.imie), Some(SavedParametry(pf, tParams, lekarz)), Some(SavedApgar(af, tApgar, lekarz)));
    var merged := DzieckoData(df) + ParametryData(pf) + ApgarData(af);
    assert merged[WeightKey] == PyFloat(pf.wagaKg);
    assert merged[Apgar5Key] == PyInt(af.apgar5Min);
    assert merged[SpO2Key] == PyInt(pf.natlenienieSpO2);
    ReadsOnlyMeasurementKeys(combined, merged);
  }
}

=== FILE: import_all.dfy ===
/** The management command `import_all_csv` (neonatology/management/commands/
    import_all_csv.py): four CSV passes that link rows through two id
    dictionaries and create records with `get_or_create`. Rows arrive already
    parsed; each table is a map keyed by the lookup fields of its `get_or_create`,
    so looking a key up and inserting when it is absent is exactly that call. */
module ImportAll {
  import opened Basics
  import opened PyValues
  import opened Records
  import opened Verdict
  import Dashboard

  // ---------------------------------------------------------------- matki.csv

  datatype MatkaRow = MatkaRow(idMatki: string, peselMatki: string, imie: string, nazwisko: string, grupaKrwi: string)

  datatype Matka = Matka(pesel: string, imie: string, nazwisko: string, grupaKrwi: string, konfliktSerologiczny: bool)

  /** The mother `get_or_create` makes for a row whose PESEL is new. */
  function NewMatka(row: MatkaRow): Matka
  {
    Matka(row.peselMatki, row.imie, row.nazwisko, row.grupaKrwi, false)
  }

  /** Row `i` is the first with its PESEL. */
  ghost predicate FirstPesel(rows: seq<MatkaRow>, i: int)
  {
    0 <= i < |rows| && forall j :: 0 <= j < i ==> rows[j].peselMatki != rows[i].peselMatki
  }

  /** Row `i` is the last with its `id_matki`. */
  ghost predicate LastIdMatki(rows: seq<MatkaRow>, i: int)
  {
    0 <= i < |rows| && forall j :: i < j < |rows| ==> rows[j].idMatki != rows[i].idMatki
  }

  /** The mothers table (by PESEL) and `matka_dict` (CSV `id_matki` to PESEL). */
  datatype MatkiPass = MatkiPass(matki: map<string, Matka>, matkaDict: map<string, string>)

  /** The first pass, one `get_or_create` per row. Stored mothers are never altered,
      and every entry of `matka_dict` names a stored mother. */
  function ImportMatki(matki: map<string, Matka>, rows: seq<MatkaRow>): (r: MatkiPass)
    ensures forall p :: p in matki ==> p in r.matki && r.matki[p] == matki[p]
    ensures forall id :: id in r.matkaDict ==> r.matkaDict[id] in r.matki
    decreases |rows|
  {
    if |rows| == 0 then MatkiPass(matki, map[])
    else
      var row := rows[|rows| - 1];
      var prev := ImportMatki(matki, rows[..|rows| - 1]);
      var matki' := if row.peselMatki in prev.matki then prev.matki else prev.matki[row.peselMatki := NewMatka(row)];
      MatkiPass(matki', prev.matkaDict[row.idMatki := row.peselMatki])
  }

  /** Every PESEL read gets a mother, and no other mother is added. */
  lemma {:induction false} MatkiKeys(matki: map<string, Matka>, rows: seq<MatkaRow>)
    ensures forall p :: p in ImportMatki(matki, rows).matki <==>
      p in matki || exists i :: 0 <= i < |rows| && rows[i].peselMatki == p
    decreases |rows|
  {
    if |rows| > 0 {
      var front := rows[..|rows| - 1];
      var row := rows[|rows| - 1];
      MatkiKeys(matki, front);
      var prev := ImportMatki(matki, front).matki;
      var r := ImportMatki(matki, rows).matki;
      assert r.Keys == prev.Keys + {row.peselMatki};
      forall p | p in r && p !in matki ensures exists i :: 0 <= i < |rows| && rows[i].peselMatki == p {
        if p != row.peselMatki {
          var i :| 0 <= i < |front| && front[i].peselMatki == p;
          assert rows[i] == front[i];
        }
      }
      forall i | 0 <= i < |rows| ensures rows[i].peselMatki in r {
        if i < |front| { assert rows[i] == front[i]; }
      }
    }
  }

  /** Every `id_matki` read gets an entry in `matka_dict`, and nothing else does. */
  lemma {:induction false} MatkaDictKeys(matki: map<string, Matka>, rows: seq<MatkaRow>)
    ensures forall id :: id in ImportMatki(matki, rows).matkaDict <==> exists i :: 0 <= i < |rows| && rows[i].idMatki == id
    decreases |rows|
  {
    if |rows| > 0 {
      var front := rows[..|rows| - 1];
      var row := rows[|rows| - 1];
      MatkaDictKeys(matki, front);
      var prev := ImportMatki(matki, front).matkaDict;
      var r := ImportMatki(matki, rows).matkaDict;
      assert r.Keys == prev.Keys + {row.idMatki};
      forall id | id in r ensures exists i :: 0 <= i < |rows| && rows[i].idMatki == id {
        if id != row.idMatki {
          var i :| 0 <= i < |front| && front[i].idMatki == id;
          assert rows[i] == front[i];
        }
      }
      forall i | 0 <= i < |rows| ensures rows[i].idMatki in r {
        if i < |front| { assert rows[i] == front[i]; }
      }
    }
  }

  /** A mother first created by the import carries the first row's data for her
      PESEL, and no serological conflict. */
  lemma {:induction false} MatkiFirstRowWins(matki: map<string, Matka>, rows: seq<MatkaRow>, i: int)
    requires FirstPesel(rows, i) && rows[i].peselMatki !in matki
    ensures rows[i].peselMatki in ImportMatki(matki, rows).matki
    ensures ImportMatki(matki, rows).matki[rows[i].peselMatki] == NewMatka(rows[i])
    ensures !ImportMatki(matki, rows).matki[rows[i].peselMatki].konfliktSerologiczny
    decreases |rows|
  {
    var front := rows[..|rows| - 1];
    var p := rows[i].peselMatki;
    if i < |front| {
      assert FirstPesel(front, i);
      MatkiFirstRowWins(matki, front, i);
    } else {
      MatkiKeys(matki, front);
      forall j | 0 <= j < |front| ensures front[j].peselMatki != p {
        assert front[j] == rows[j];
      }
    }
  }

  /** Every `id_matki` maps to the PESEL of the last row that carried it; rows
      with one PESEL therefore share one mother. */
  lemma {:induction false} MatkaDictLastRowWins(matki: map<string, Matka>, rows: seq<MatkaRow>, i: int)
    requires LastIdMatki(rows, i)
    ensures rows[i].idMatki in ImportMatki(matki, rows).matkaDict
    ensures ImportMatki(matki, rows).matkaDict[rows[i].idMatki] == rows[i].peselMatki
    decreases |rows|
  {
    var front := rows[..|rows| - 1];
    if i < |front| {
      assert LastIdMatki(front, i);
      MatkaDictLastRowWins(matki, front, i);
    }
  }

  // ---------------------------------------------------------------- noworodki.csv

  datatype NoworodekRow = NoworodekRow(idNoworodka: string, idMatki: string, imie: string, dataUrodzenia: string, plec: string)

  /** The lookup of the newborn `get_or_create`: name and birth date. */
  type DzieckoKey = (string, string)

  /** A stored newborn; `matka` is the PESEL of its mother. */
  datatype Noworodek = Noworodek(imie: string, dataUrodzenia: string, plec: string, matka: string)

  function KeyOf(row: NoworodekRow): DzieckoKey
  {
    (row.imie, row.dataUrodzenia)
  }

  function NewNoworodek(row: NoworodekRow, pesel: string): Noworodek
  {
    Noworodek(row.imie, row.dataUrodzenia, row.plec, pesel)
  }

  /** Row `i` has a known mother and is the first such row with its name and birth date. */
  ghost predicate FirstLinkedKey(rows: seq<NoworodekRow>, i: int, matkaDict: map<string, string>)
  {
    0 <= i < |rows| && rows[i].idMatki in matkaDict
    && forall j :: 0 <= j < i && rows[j].idMatki in matkaDict ==> KeyOf(rows[j]) != KeyOf(rows[i])
  }

  /** Row `i` has a known mother and is the last such row with its `id_noworodka`. */
  ghost predicate LastLinkedId(rows: seq<NoworodekRow>, i: int, matkaDict: map<string, string>)
  {
    0 <= i < |rows| && rows[i].idMatki in matkaDict
    && forall j :: i < j < |rows| && rows[j].idMatki in matkaDict ==> rows[j].idNoworodka != rows[i].idNoworodka
  }

  /** The newborns table and `dziecko_dict` (CSV `id_noworodka` to newborn key). */
  datatype NoworodkiPass = NoworodkiPass(dzieci: map<DzieckoKey, Noworodek>, dzieckoDict: map<string, DzieckoKey>)

  /** The second pass. Stored newborns are never altered, every entry of
      `dziecko_dict` names a stored newborn, and every newborn it creates has a
      mother from `matka_dict`. */
  function ImportNoworodki(dzieci: map<DzieckoKey, Noworodek>, matkaDict: map<string, string>,
                           rows: seq<NoworodekRow>): (r: NoworodkiPass)
    ensures forall k :: k in dzieci ==> k in r.dzieci && r.dzieci[k] == dzieci[k]
    ensures forall id :: id in r.dzieckoDict ==> r.dzieckoDict[id] in r.dzieci
    ensures forall k :: k in r.dzieci && k !in dzieci ==> r.dzieci[k].matka in matkaDict.Values
    decreases |rows|
  {
    if |rows| == 0 then NoworodkiPass(dzieci, map[])
    else
      var row := rows[|rows| - 1];
      var prev := ImportNoworodki(dzieci, matkaDict, rows[..|rows| - 1]);
      if row.idMatki in matkaDict then
        var k := KeyOf(row);
        var dzieci' := if k in prev.dzieci then prev.dzieci else prev.dzieci[k := NewNoworodek(row, matkaDict[row.idMatki])];
        NoworodkiPass(dzieci', prev.dzieckoDict[row.idNoworodka := k])
      else
        prev
  }

  /** Only rows with a known mother create newborns, and each of them does. */
  lemma {:induction false} NoworodkiKeys(dzieci: map<DzieckoKey, Noworodek>, matkaDict: map<string, string>,
                                         rows: seq<NoworodekRow>)
    ensures forall k :: k in ImportNoworodki(dzieci, matkaDict, rows).dzieci <==>
      k in dzieci || exists i :: 0 <= i < |rows| && rows[i].idMatki in matkaDict && KeyOf(rows[i]) == k
    decreases |rows|
  {
    if |rows| > 0 {
      var front := rows[..|rows| - 1];
      var row := rows[|rows| - 1];
      NoworodkiKeys(dzieci, matkaDict, front);
      var prev := ImportNoworodki(dzieci, matkaDict, front).dzieci;
      var r := ImportNoworodki(dzieci, matkaDict, rows).dzieci;
      assert r.Keys == prev.Keys + (if row.idMatki in matkaDict then {KeyOf(row)} else {});
      forall k | k in r && k !in dzieci
        ensures exists i :: 0 <= i < |rows| && rows[i].idMatki in matkaDict && KeyOf(rows[i]) == k
      {
        if k !in prev {
          assert KeyOf(rows[|rows| - 1]) == k;
        } else {
          var i :| 0 <= i < |front| && front[i].idMatki in matkaDict && KeyOf(front[i]) == k;
          assert rows[i] == front[i];
        }
      }
      forall i | 0 <= i < |rows| && rows[i].idMatki in matkaDict ensures KeyOf(rows[i]) in r {
        if i < |front| { assert rows[i] == front[i]; }
      }
    }
  }

  /** A row whose `id_matki` is unknown never puts its `id_noworodka` into
      `dziecko_dict`; a row whose mother is known always does. */
  lemma {:induction false} DzieckoDictKeys(dzieci: map<DzieckoKey, Noworodek>, matkaDict: map<string, string>,
                                           rows: seq<NoworodekRow>)
    ensures forall id :: id in ImportNoworodki(dzieci, matkaDict, rows).dzieckoDict <==>
      exists i :: 0 <= i < |rows| && rows[i].idMatki in matkaDict && rows[i].idNoworodka == id
    decreases |rows|
  {
    if |rows| > 0 {
      var front := rows[..|rows| - 1];
      var row := rows[|rows| - 1];
      DzieckoDictKeys(dzieci, matkaDict, front);
      var prev := ImportNoworodki(dzieci, matkaDict, front).dzieckoDict;
      var r := ImportNoworodki(dzieci, matkaDict, rows).dzieckoDict;
      assert r.Keys == prev.Keys + (if row.idMatki in matkaDict then {row.idNoworodka} else {});
      forall id | id in r
        ensures exists i :: 0 <= i < |rows| && rows[i].idMatki in matkaDict && rows[i].idNoworodka == id
      {
        if id !in prev {
          assert rows[|rows| - 1].idNoworodka == id;
        } else {
          var i :| 0 <= i < |front| && front[i].idMatki in matkaDict && front[i].idNoworodka == id;
          assert rows[i] == front[i];
        }
      }
      forall i | 0 <= i < |rows| && rows[i].idMatki in matkaDict ensures rows[i].idNoworodka in r {
        if i < |front| { assert rows[i] == front[i]; }
      }
    }
  }

  /** A newborn first created by the import takes sex and mother from the first row
      with its name and birth date whose mother is known. */
  lemma {:induction false} NoworodkiFirstRowWins(dzieci: map<DzieckoKey, Noworodek>, matkaDict: map<string, string>,
                                                 rows: seq<NoworodekRow>, i: int)
    requires FirstLinkedKey(rows, i, matkaDict) && KeyOf(rows[i]) !in dzieci
    ensures KeyOf(rows[i]) in ImportNoworodki(dzieci, matkaDict, rows).dzieci
    ensures ImportNoworodki(dzieci, matkaDict, rows).dzieci[KeyOf(rows[i])]
      == NewNoworodek(rows[i], matkaDict[rows[i].idMatki])
    decreases |rows|
  {
    var front := rows[..|rows| - 1];
    if i < |front| {
      assert FirstLinkedKey(front, i, matkaDict);
      NoworodkiFirstRowWins(dzieci, matkaDict, front, i);
    } else {
      NoworodkiKeys(dzieci, matkaDict, front);
      forall j | 0 <= j < |front| && front[j].idMatki in matkaDict ensures KeyOf(front[j]) != KeyOf(rows[i]) {
        assert front[j] == rows[j];
      }
    }
  }

  /** Every linked `id_noworodka` maps to the newborn of the last linked row carrying it. */
  lemma {:induction false} DzieckoDictLastRowWins(dzieci: map<DzieckoKey, Noworodek>, matkaDict: map<string, string>,
                                                  rows: seq<NoworodekRow>, i: int)
    requires LastLinkedId(rows, i, matkaDict)
    ensures rows[i].idNoworodka in ImportNoworodki(dzieci, matkaDict, rows).dzieckoDict
    ensures ImportNoworodki(dzieci, matkaDict, rows).dzieckoDict[rows[i].idNoworodka] == KeyOf(rows[i])
    decreases |rows|
  {
    var front := rows[..|rows| - 1];
    if i < |front| {
      assert LastLinkedId(front, i, matkaDict);
      DzieckoDictLastRowWins(dzieci, matkaDict, front, i);
    }
  }

  // ---------------------------------------------------------------- pomiary.csv

  datatype PomiarRow = PomiarRow(idNoworodka: string, dataPomiaru: Timestamp, wzrostCm: real, wagaG: real, obwodGlowyCm: real)

  /** The lookup of the parameters `get_or_create`: newborn and measurement time. */
  type PomiarKey = (DzieckoKey, Timestamp)

  // The values every imported measurement gets, whatever its row says.
  const ImportedOddechy: int := 30
  const ImportedSpO2: int := 95

  /** The parameters `get_or_create` makes for a new key; grams become kilograms. */
  function ImportedParametry(row: PomiarRow): Parametry
  {
    Parametry(row.dataPomiaru, None, row.wzrostCm, Some(row.wagaG / 1000.0), false, row.obwodGlowyCm,
              ImportedOddechy, Some(ImportedSpO2))
  }

  function PomiarKeyOf(row: PomiarRow, dzieckoDict: map<string, DzieckoKey>): PomiarKey
    requires row.idNoworodka in dzieckoDict
  {
    (dzieckoDict[row.idNoworodka], row.dataPomiaru)
  }

  /** Row `i` names a mapped newborn and is the first such row with its key. */
  ghost predicate FirstPomiar(rows: seq<PomiarRow>, i: int, dzieckoDict: map<string, DzieckoKey>)
  {
    0 <= i < |rows| && rows[i].idNoworodka in dzieckoDict
    && forall j :: 0 <= j < i && rows[j].idNoworodka in dzieckoDict ==>
         PomiarKeyOf(rows[j], dzieckoDict) != PomiarKeyOf(rows[i], dzieckoDict)
  }

  /** The third pass. Stored parameters are never altered; every one it adds belongs to
      a mapped newborn, is stamped with its key's time, has no clinician, is not
      premature, and has 30 breaths/min and SpO2 95. */
  function ImportPomiary(parametry: map<PomiarKey, Parametry>, dzieckoDict: map<string, DzieckoKey>,
                         rows: seq<PomiarRow>): (r: map<PomiarKey, Parametry>)
    ensures forall k :: k in parametry ==> k in r && r[k] == parametry[k]
    ensures forall k :: k in r && k !in parametry ==>
      && k.0 in dzieckoDict.Values && r[k].dataPomiaru == k.1 && r[k].lekarz.None? && !r[k].czyWczesniak
      && r[k].oddechyNaMin == ImportedOddechy && r[k].natlenienieSpO2 == Some(ImportedSpO2)
    decreases |rows|
  {
    if |rows| == 0 then parametry
    else
      var row := rows[|rows| - 1];
      var prev := ImportPomiary(parametry, dzieckoDict, rows[..|rows| - 1]);
      if row.idNoworodka in dzieckoDict then
        var k := PomiarKeyOf(row, dzieckoDict);
        if k in prev then prev else prev[k := ImportedParametry(row)]
      else
        prev
  }

  /** Only rows naming a mapped newborn add measurements, and each of them has one. */
  lemma {:induction false} PomiaryKeys(parametry: map<PomiarKey, Parametry>, dzieckoDict: map<string, DzieckoKey>,
                                       rows: seq<PomiarRow>)
    ensures forall k :: k in ImportPomiary(parametry, dzieckoDict, rows) <==>
      k in parametry || exists i :: 0 <= i < |rows| && rows[i].idNoworodka in dzieckoDict && PomiarKeyOf(rows[i], dzieckoDict) == k
    decreases |rows|
  {
    if |rows| > 0 {
      var front := rows[..|rows| - 1];
      var row := rows[|rows| - 1];
      PomiaryKeys(parametry, dzieckoDict, front);
      var prev := ImportPomiary(parametry, dzieckoDict, front);
      var r := ImportPomiary(parametry, dzieckoDict, rows);
      assert r.Keys == prev.Keys + (if row.idNoworodka in dzieckoDict then {PomiarKeyOf(row, dzieckoDict)} else {});
      forall k | k in r && k !in parametry
        ensures exists i :: 0 <= i < |rows| && rows[i].idNoworodka in dzieckoDict && PomiarKeyOf(rows[i], dzieckoDict) == k
      {
        if k !in prev {
          assert PomiarKeyOf(rows[|rows| - 1], dzieckoDict) == k;
        } else {
          var i :| 0 <= i < |front| && front[i].idNoworodka in dzieckoDict && PomiarKeyOf(front[i], dzieckoDict) == k;
          assert rows[i] == front[i];
        }
      }
      forall i | 0 <= i < |rows| && rows[i].idNoworodka in dzieckoDict ensures PomiarKeyOf(rows[i], dzieckoDict) in r {
        if i < |front| { assert rows[i] == front[i]; }
      }
    }
  }

  /** A measurement first created by the import carries the first row's height,
      weight in kilograms and head circumference for its key. */
  lemma {:induction false} PomiaryFirstRowWins(parametry: map<PomiarKey, Parametry>, dzieckoDict: map<string, DzieckoKey>,
                                               rows: seq<PomiarRow>, i: int)
    requires FirstPomiar(rows, i, dzieckoDict) && PomiarKeyOf(rows[i], dzieckoDict) !in parametry
    ensures PomiarKeyOf(rows[i], dzieckoDict) in ImportPomiary(parametry, dzieckoDict, rows)
    ensures ImportPomiary(parametry, dzieckoDict, rows)[PomiarKeyOf(rows[i], dzieckoDict)] == ImportedParametry(rows[i])
    decreases |rows|
  {
    var front := rows[..|rows| - 1];
    if i < |front| {
      assert FirstPomiar(front, i, dzieckoDict);
      PomiaryFirstRowWins(parametry, dzieckoDict, front, i);
    } else {
      PomiaryKeys(parametry, dzieckoDict, front);
      forall j | 0 <= j < |front| && front[j].idNoworodka in dzieckoDict
        ensures PomiarKeyOf(front[j], dzieckoDict) != PomiarKeyOf(rows[i], dzieckoDict)
      {
        assert front[j] == rows[j];
      }
    }
  }

  // ---------------------------------------------------------------- wyniki_apgar.csv

  datatype ApgarRow = ApgarRow(idNoworodka: string, minuta: int, wynik: int)

  /** `apgar_data`: for each CSV newborn id, its scores by minute; `order` is the
      dictionary's iteration order, the order in which ids first appear. */
  datatype PivotTable = PivotTable(order: seq<string>, scores: map<string, map<int, int>>)

  /** The pivot loop over the APGAR rows. */
  function Pivot(rows: seq<ApgarRow>): (t: PivotTable)
    ensures forall id :: id in t.scores <==> id in t.order
    ensures forall a, b :: 0 <= a < b < |t.order| ==> t.order[a] != t.order[b]
    decreases |rows|
  {
    if |rows| == 0 then PivotTable([], map[])
    else
      var row := rows[|rows| - 1];
      var prev := Pivot(rows[..|rows| - 1]);
      var mins := if row.idNoworodka in prev.scores then prev.scores[row.idNoworodka] else map[];
      var order := if row.idNoworodka in prev.scores then prev.order else prev.order + [row.idNoworodka];
      PivotTable(order, prev.scores[row.idNoworodka := mins[row.minuta := row.wynik]])
  }

  /** Every id seen gets an entry, and no other id does. */
  lemma {:induction false} PivotIds(rows: seq<ApgarRow>)
    ensures forall id :: id in Pivot(rows).scores <==> exists i :: 0 <= i < |rows| && rows[i].idNoworodka == id
    decreases |rows|
  {
    if |rows| > 0 {
      var front := rows[..|rows| - 1];
      var row := rows[|rows| - 1];
      PivotIds(front);
      var t := Pivot(rows).scores;
      forall id | id in t ensures exists i :: 0 <= i < |rows| && rows[i].idNoworodka == id {
        if id != row.idNoworodka {
          var i :| 0 <= i < |front| && front[i].idNoworodka == id;
          assert rows[i] == front[i];
        } else {
          assert rows[|rows| - 1].idNoworodka == id;
        }
      }
      forall i | 0 <= i < |rows| ensures rows[i].idNoworodka in t {
        if i < |front| { assert rows[i] == front[i]; }
      }
    }
  }

  /** Some row gives a score for `id` at minute `m`. */
  ghost predicate HasScore(rows: seq<ApgarRow>, id: string, m: int)
  {
    exists i :: 0 <= i < |rows| && rows[i].idNoworodka == id && rows[i].minuta == m
  }

  lemma HasScoreSnoc(rows: seq<ApgarRow>, id: string, m: int)
    requires |rows| > 0
    ensures HasScore(rows, id, m) <==>
      HasScore(rows[..|rows| - 1], id, m) || (rows[|rows| - 1].idNoworodka == id && rows[|rows| - 1].minuta == m)
  {
    var front := rows[..|rows| - 1];
    if HasScore(rows, id, m) {
      var i :| 0 <= i < |rows| && rows[i].idNoworodka == id && rows[i].minuta == m;
      if i < |front| { assert front[i] == rows[i]; }
    }
    if HasScore(front, id, m) {
      var i :| 0 <= i < |front| && front[i].idNoworodka == id && front[i].minuta == m;
      assert front[i] == rows[i];
    }
  }

  /** An id's entry holds exactly the minutes read for it. */
  lemma {:induction false} PivotMinutes(rows: seq<ApgarRow>, id: string, m: int)
    requires id in Pivot(rows).scores
    ensures m in Pivot(rows).scores[id] <==> HasScore(rows, id, m)
    decreases |rows|
  {
    var front := rows[..|rows| - 1];
    var row := rows[|rows| - 1];
    var prev := Pivot(front).scores;
    var t := Pivot(rows).scores;
    HasScoreSnoc(rows, id, m);
    if id == row.idNoworodka && m == row.minuta {
    } else if id in prev {
      PivotMinutes(front, id, m);
      assert m in t[id] <==> m in prev[id];
    } else {
      PivotIds(front);
      assert t[id] == map[row.minuta := row.wynik];
    }
  }

  /** Row `i` is the last with its (id, minute) pair. */
  ghost predicate LastScore(rows: seq<ApgarRow>, i: int)
  {
    0 <= i < |rows|
    && forall j :: i < j < |rows| ==> rows[j].idNoworodka != rows[i].idNoworodka || rows[j].minuta != rows[i].minuta
  }

  /** For each (id, minute), the last score read wins. */
  lemma {:induction false} PivotLastScoreWins(rows: seq<ApgarRow>, i: int)
    requires LastScore(rows, i)
    ensures rows[i].idNoworodka in Pivot(rows).scores && rows[i].minuta in Pivot(rows).scores[rows[i].idNoworodka]
    ensures Pivot(rows).scores[rows[i].idNoworodka][rows[i].minuta] == rows[i].wynik
    decreases |rows|
  {
    var front := rows[..|rows| - 1];
    if i < |front| {
      assert LastScore(front, i);
      PivotLastScoreWins(front, i);
    }
  }

  /** `x` appears in the rows before `y` first does. */
  ghost predicate AppearsBefore(rows: seq<ApgarRow>, x: string, y: string)
  {
    exists i :: 0 <= i < |rows| && rows[i].idNoworodka == x && forall j :: 0 <= j <= i ==> rows[j].idNoworodka != y
  }

  /** The ids are visited in order of first appearance. */
  lemma {:induction false} PivotOrder(rows: seq<ApgarRow>)
    ensures forall a, b :: 0 <= a < b < |Pivot(rows).order| ==> AppearsBefore(rows, Pivot(rows).order[a], Pivot(rows).order[b])
    decreases |rows|
  {
    if |rows| > 0 {
      var front := rows[..|rows| - 1];
      var row := rows[|rows| - 1];
      PivotOrder(front);
      PivotIds(front);
      var po := Pivot(front).order;
      var o := Pivot(rows).order;
      forall a, b | 0 <= a < b < |o| ensures AppearsBefore(rows, o[a], o[b]) {
        if b < |po| {
          assert AppearsBefore(front, po[a], po[b]);
          var i :| 0 <= i < |front| && front[i].idNoworodka == po[a] && forall j :: 0 <= j <= i ==> front[j].idNoworodka != po[b];
          assert rows[i] == front[i];
          forall j | 0 <= j <= i ensures rows[j].idNoworodka != o[b] {
            assert rows[j] == front[j];
          }
        } else {
          assert o[b] == row.idNoworodka && row.idNoworodka !in Pivot(front).scores;
          assert o[a] in Pivot(front).scores;
          var i :| 0 <= i < |front| && front[i].idNoworodka == o[a];
          assert rows[i] == front[i];
          forall j | 0 <= j <= i ensures rows[j].idNoworodka != o[b] {
            assert rows[j] == front[j];
          }
        }
      }
    }
  }

  /** The lookup of the APGAR `get_or_create`: newborn and 1-minute score. */
  type ApgarKey = (DzieckoKey, Option<int>)

  /** The APGAR record made for a newborn's pivoted scores: `mins.get(m)` for the
      three minutes, stamped with the import time. */
  function ImportedApgar(mins: map<int, int>, now: Timestamp): Apgar
  {
    Apgar(now, None, Lookup(mins, 1), Lookup(mins, 5), Lookup(mins, 10))
  }

  function ApgarKeyOf(dzieckoDict: map<string, DzieckoKey>, t: PivotTable, id: string): ApgarKey
    requires id in dzieckoDict && id in t.scores
  {
    (dzieckoDict[id], Lookup(t.scores[id], 1))
  }

  /** Position `k` of `ids` is a mapped id and the first such with its key. */
  ghost predicate FirstApgar(ids: seq<string>, k: int, dzieckoDict: map<string, DzieckoKey>, t: PivotTable)
    requires forall n :: 0 <= n < |ids| ==> ids[n] in t.scores
  {
    0 <= k < |ids| && ids[k] in dzieckoDict
    && forall n :: 0 <= n < k && ids[n] in dzieckoDict ==>
         ApgarKeyOf(dzieckoDict, t, ids[n]) != ApgarKeyOf(dzieckoDict, t, ids[k])
  }

  /** The loop over `apgar_data.items()`. Stored APGAR records are never altered;
      every one it adds is, for some mapped id, keyed on that id's newborn and
      1-minute score, and holds that id's pivoted scores. */
  function CreateApgar(apgar: map<ApgarKey, Apgar>, dzieckoDict: map<string, DzieckoKey>, t: PivotTable,
                       ids: seq<string>, now: Timestamp): (r: map<ApgarKey, Apgar>)
    requires forall n :: 0 <= n < |ids| ==> ids[n] in t.scores
    ensures forall k :: k in apgar ==> k in r && r[k] == apgar[k]
    ensures forall k :: k in r && k !in apgar ==>
      exists n :: 0 <= n < |ids| && ids[n] in dzieckoDict && ApgarKeyOf(dzieckoDict, t, ids[n]) == k
                  && r[k] == ImportedApgar(t.scores[ids[n]], now)
    decreases |ids|
  {
    if |ids| == 0 then apgar
    else
      var id := ids[|ids| - 1];
      var prev := CreateApgar(apgar, dzieckoDict, t, ids[..|ids| - 1], now);
      if id in dzieckoDict then
        var k := ApgarKeyOf(dzieckoDict, t, id);
        if k in prev then prev else prev[k := ImportedApgar(t.scores[id], now)]
      else
        prev
  }

  /** Every mapped id has a record under its newborn and 1-minute score; the first
      id with that key decides its contents. */
  lemma {:induction false} ApgarFirstIdWins(apgar: map<ApgarKey, Apgar>, dzieckoDict: map<string, DzieckoKey>,
                                            t: PivotTable, ids: seq<string>, now: Timestamp, k: int)
    requires forall n :: 0 <= n < |ids| ==> ids[n] in t.scores
    requires FirstApgar(ids, k, dzieckoDict, t)
    ensures ApgarKeyOf(dzieckoDict, t, ids[k]) in CreateApgar(apgar, dzieckoDict, t, ids, now)
    ensures ApgarKeyOf(dzieckoDict, t, ids[k]) !in apgar ==>
      CreateApgar(apgar, dzieckoDict, t, ids, now)[ApgarKeyOf(dzieckoDict, t, ids[k])] == ImportedApgar(t.scores[ids[k]], now)
    decreases |ids|
  {
    var front := ids[..|ids| - 1];
    var key := ApgarKeyOf(dzieckoDict, t, ids[k]);
    if k < |front| {
      assert FirstApgar(front, k, dzieckoDict, t);
      ApgarFirstIdWins(apgar, dzieckoDict, t, front, now, k);
    }
  }

  /** An imported APGAR record's 5- and 10-minute scores are those of the last rows
      read for its id at those minutes, or none when there was no such row. */
  lemma ImportedApgarScores(rows: seq<ApgarRow>, id: string, now: Timestamp, m: int)
    requires id in Pivot(rows).scores && m in {5, 10}
    ensures var a := ImportedApgar(Pivot(rows).scores[id], now);
      var score := if m == 5 then a.apgar5Min else a.apgar10Min;
      && (score.None? <==> !HasScore(rows, id, m))
      && (forall i :: LastScore(rows, i) && rows[i].idNoworodka == id && rows[i].minuta == m ==> score == Some(rows[i].wynik))
  {
    PivotMinutes(rows, id, m);
    forall i | LastScore(rows, i) && rows[i].idNoworodka == id && rows[i].minuta == m {
      PivotLastScoreWins(rows, i);
    }
  }

  // ---------------------------------------------------------------- the whole command

  /** The four tables the command writes. */
  datatype Db = Db(
    matki: map<string, Matka>,
    dzieci: map<DzieckoKey, Noworodek>,
    parametry: map<PomiarKey, Parametry>,
    apgar: map<ApgarKey, Apgar>)

  /** Every stored newborn has a stored mother; every stored measurement and APGAR
      record belongs to a stored newborn. */
  ghost predicate Linked(db: Db)
  {
    && (forall k :: k in db.dzieci ==> db.dzieci[k].matka in db.matki)
    && (forall k :: k in db.parametry ==> k.0 in db.dzieci)
    && (forall k :: k in db.apgar ==> k.0 in db.dzieci)
  }

  /** The contents of the four CSV files, already parsed. */
  datatype CsvFiles = CsvFiles(
    matki: seq<MatkaRow>, noworodki: seq<NoworodekRow>, pomiary: seq<PomiarRow>, wynikiApgar: seq<ApgarRow>)

  /** `Command.handle`: the four passes in order, `now` standing for `timezone.now()`.
      Nothing stored before is altered, a linked database stays linked, and every
      imported measurement has SpO2 95. */
  function ImportAllCsv(db: Db, csv: CsvFiles, now: Timestamp): (r: Db)
    ensures forall k :: k in db.matki ==> k in r.matki && r.matki[k] == db.matki[k]
    ensures forall k :: k in db.dzieci ==> k in r.dzieci && r.dzieci[k] == db.dzieci[k]
    ensures forall k :: k in db.parametry ==> k in r.parametry && r.parametry[k] == db.parametry[k]
    ensures forall k :: k in db.apgar ==> k in r.apgar && r.apgar[k] == db.apgar[k]
    ensures Linked(db) ==> Linked(r)
    ensures forall k :: k in r.parametry && k !in db.parametry ==> r.parametry[k].natlenienieSpO2 == Some(ImportedSpO2)
  {
    var m := ImportMatki(db.matki, csv.matki);
    var n := ImportNoworodki(db.dzieci, m.matkaDict, csv.noworodki);
    var p := ImportPomiary(db.parametry, n.dzieckoDict, csv.pomiary);
    var t := Pivot(csv.wynikiApgar);
    var a := CreateApgar(db.apgar, n.dzieckoDict, t, t.order, now);
    var r := Db(m.matki, n.dzieci, p, a);
    assert forall k :: k in r.dzieci && k !in db.dzieci ==> r.dzieci[k].matka in r.matki by {
      forall k | k in r.dzieci && k !in db.dzieci ensures r.dzieci[k].matka in r.matki {
        var id :| id in m.matkaDict && m.matkaDict[id] == r.dzieci[k].matka;
      }
    }
    assert forall k :: k in p && k !in db.parametry ==> k.0 in r.dzieci by {
      forall k | k in p && k !in db.parametry ensures k.0 in r.dzieci {
        var id :| id in n.dzieckoDict && n.dzieckoDict[id] == k.0;
      }
    }
    r
  }

  /** An imported measurement can never trip the oxygen rule: its verdict carries no
      oxygen warning, and it puts a newborn under monitoring only through its weight. */
  lemma ImportedParametryNeverLowOxygen(db: Db, csv: CsvFiles, now: Timestamp, k: PomiarKey,
                                        imie: Option<string>, apgar: Option<Apgar>)
    requires k in ImportAllCsv(db, csv, now).parametry && k !in db.parametry
    ensures var p := ImportAllCsv(db, csv, now).parametry[k];
      && (Sprawdz(Dashboard.Combined(imie, Some(p), apgar)).Ok?
          && Sprawdz(Dashboard.Combined(imie, Some(p), apgar)).value.Abnormal? ==>
            forall w :: w in Sprawdz(Dashboard.Combined(imie, Some(p), apgar)).value.warnings ==> !w.LowOxygen?)
      && (Dashboard.ParametryAlarm(Some(p)) ==> p.wagaKg.Some? && p.wagaKg.value < WeightMinKg)
  {
    var p := ImportAllCsv(db, csv, now).parametry[k];
    var d := Dashboard.Combined(imie, Some(p), apgar);
    assert d[SpO2Key] == PyInt(ImportedSpO2);
    if Sprawdz(d).Ok? {
      assert Read(d).value.spO2 == ImportedSpO2;
      assert !Violated(OxygenRule, Read(d).value);
    }
  }
}

=== FILE: pyvalues.dfy ===
/** The few Python built-ins the modelled code leans on: dictionary values and
    their `float()` / `int()` conversions, `str.strip()`, and `str()` of an int. */
module PyValues {
  import opened Basics

  /** A value stored in a Python dictionary by the modelled code. `PyObject` stands
      for anything that is neither a number nor text (a date, a model instance). */
  datatype PyValue =
    | PyNone
    | PyBool(b: bool)
    | PyInt(i: int)
    | PyFloat(x: real)
    | PyStr(s: string)
    | PyObject

  /** The exception a conversion raises. */
  datatype PyError =
    | TypeError        // float(None), int(None), float(<date>), ...
    | TextNotParsed    // text under a numeric key; see README, "Left out"

  /** Truncation toward zero, as Python's `int()` of a float. */
  function Trunc(x: real): (r: int)
    ensures 0.0 <= x ==> r as real <= x < r as real + 1.0
    ensures x < 0.0 ==> r as real - 1.0 < x <= r as real
  {
    if 0.0 <= x then x.Floor else -((-x).Floor)
  }

  /** Python's `float(v)`. */
  function Float(v: PyValue): (r: Result<real, PyError>)
    ensures r.Ok? <==> v.PyBool? || v.PyInt? || v.PyFloat?
    ensures v.PyInt? ==> r == Ok(v.i as real)
    ensures v.PyFloat? ==> r == Ok(v.x)
    ensures v.PyNone? || v.PyObject? ==> r == Err(TypeError)
  {
    match v
    case PyNone => Err(TypeError)
    case PyBool(b) => Ok(if b then 1.0 else 0.0)
    case PyInt(i) => Ok(i as real)
    case PyFloat(x) => Ok(x)
    case PyStr(_) => Err(TextNotParsed)
    case PyObject => Err(TypeError)
  }

  /** Python's `int(v)`. */
  function Int(v: PyValue): (r: Result<int, PyError>)
    ensures r.Ok? <==> v.PyBool? || v.PyInt? || v.PyFloat?
    ensures v.PyInt? ==> r == Ok(v.i)
    ensures v.PyFloat? ==> r == Ok(Trunc(v.x))
    ensures v.PyNone? || v.PyObject? ==> r == Err(TypeError)
  {
    match v
    case PyNone => Err(TypeError)
    case PyBool(b) => Ok(if b then 1 else 0)
    case PyInt(i) => Ok(i)
    case PyFloat(x) => Ok(Trunc(x))
    case PyStr(_) => Err(TextNotParsed)
    case PyObject => Err(TypeError)
  }

  /** Python's `d.get(k, default)`. */
  function Get(d: map<string, PyValue>, k: string, default: PyValue): (v: PyValue)
    ensures k in d ==> v == d[k]
    ensures k !in d ==> v == default
  {
    if k in d then d[k] else default
  }

  // ---------------------------------------------------------------- str.strip()

  /** The characters for which Python's `str.isspace()` holds. */
  predicate IsSpace(c: char)
  {
    c == ' ' || ('\t' <= c <= '\r') || ('\U{1C}' <= c <= '\U{1F}')
    || c == '\U{85}' || c == '\U{A0}' || c == '\U{1680}'
    || ('\U{2000}' <= c <= '\U{200A}') || c == '\U{2028}' || c == '\U{2029}'
    || c == '\U{202F}' || c == '\U{205F}' || c == '\U{3000}'
  }

  predicate AllSpace(s: string)
  {
    forall k :: 0 <= k < |s| ==> IsSpace(s[k])
  }

  /** Number of leading whitespace characters. */
  function LeadingSpaces(s: string): (n: nat)
    ensures n <= |s| && AllSpace(s[..n])
    ensures n == |s| || !IsSpace(s[n])
    decreases |s|
  {
    if |s| > 0 && IsSpace(s[0]) then 1 + LeadingSpaces(s[1..]) else 0
  }

  /** Number of trailing whitespace characters. */
  function TrailingSpaces(s: string): (n: nat)
    ensures n <= |s| && AllSpace(s[|s| - n..])
    ensures n == |s| || !IsSpace(s[|s| - n - 1])
    decreases |s|
  {
    if |s| > 0 && IsSpace(s[|s| - 1]) then 1 + TrailingSpaces(s[..|s| - 1]) else 0
  }

  /** Python's `s.strip()`: `s` is the result wrapped in whitespace, and the result
      neither starts nor ends with whitespace. */
  function Strip(s: string): (r: string)
    ensures exists a, b :: 0 <= a <= b <= |s| && r == s[a..b] && AllSpace(s[..a]) && AllSpace(s[b..])
    ensures |r| == 0 || (!IsSpace(r[0]) && !IsSpace(r[|r| - 1]))
  {
    var a := LeadingSpaces(s);
    var t := TrailingSpaces(s[a..]);
    var b := |s| - t;
    assert s[a..][|s[a..]| - t..] == s[b..];
    assert 0 <= a <= b <= |s| && AllSpace(s[..a]) && AllSpace(s[b..]);
    assert a < b ==> s[a..b][0] == s[a] && s[a..b][b - a - 1] == s[a..][|s[a..]| - t - 1];
    s[a..b]
  }

  // ---------------------------------------------------------------- str(int)

  function DigitChar(d: nat): char
    requires d < 10
  {
    "0123456789"[d]
  }

  function DigitValue(c: char): nat
  {
    if '0' <= c <= '9' then (c as int - '0' as int) else 0
  }

  /** Decimal digits of `n`, most significant first, without leading zeros. */
  function NatToString(n: nat): (r: string)
    ensures |r| >= 1
    ensures forall k :: 0 <= k < |r| ==> '0' <= r[k] <= '9'
    decreases n
  {
    if n < 10 then [DigitChar(n)] else NatToString(n / 10) + [DigitChar(n % 10)]
  }

  /** Python's `str(i)` (and an f-string `{i}`) for an int. */
  function IntToString(i: int): (r: string)
    ensures |r| >= 1 && '\n' !in r
  {
    if i < 0 then "-" + NatToString(-i) else NatToString(i)
  }

  /** Value of a run of decimal digits. */
  function ParseNat(s: string): nat
  {
    if |s| == 0 then 0 else 10 * ParseNat(s[..|s| - 1]) + DigitValue(s[|s| - 1])
  }

  /** Value of an optionally signed run of decimal digits. */
  function ParseInt(s: string): int
  {
    if |s| > 0 && s[0] == '-' then -(ParseNat(s[1..]) as int) else ParseNat(s)
  }

  lemma {:induction false} ParseNatToString(n: nat)
    ensures ParseNat(NatToString(n)) == n
    decreases n
  {
    if n >= 10 {
      var r := NatToString(n);
      ParseNatToString(n / 10);
      assert r[..|r| - 1] == NatToString(n / 10);
      assert DigitValue(r[|r| - 1]) == n % 10 by {
        assert r[|r| - 1] == DigitChar(n % 10);
      }
    } else {
      assert NatToString(n)[..0] == "";
    }
  }

  /** `str()` of an int reads back as that int. */
  lemma IntToStringRoundTrip(i: int)
    ensures ParseInt(IntToString(i)) == i
  {
    if i < 0 {
      ParseNatToString(-i);
      assert IntToString(i)[1..] == NatToString(-i);
    } else {
      ParseNatToString(i);
    }
  }
}

=== FILE: records.dfy ===
/** The stored measurement records of one newborn, shaped as the views and the
    import commands use them. A field the dashboard guards with `is not None`, or
    that an import fills from `dict.get`, is optional. */
module Records {
  import opened Basics

  /** A `data_pomiaru` timestamp. */
  type Timestamp = int

  /** A clinician reference (`lekarz`), absent for imported rows. */
  type UserId = nat

  /** One `ParametryZewnetrzne` row. */
  datatype Parametry = Parametry(
    dataPomiaru: Timestamp,
    lekarz: Option<UserId>,
    wzrostCm: real,
    wagaKg: Option<real>,
    czyWczesniak: bool,
    obwodGlowyCm: real,
    oddechyNaMin: int,
    natlenienieSpO2: Option<int>)

  /** One `APGARScore` row. */
  datatype Apgar = Apgar(
    dataPomiaru: Timestamp,
    lekarz: Option<UserId>,
    apgar1Min: Option<int>,
    apgar5Min: Option<int>,
    apgar10Min: Option<int>)

  function ParametryStamp(p: Parametry): Timestamp { p.dataPomiaru }

  function ApgarStamp(a: Apgar): Timestamp { a.dataPomiaru }
}

=== FILE: text.dfy ===
/** Newline-separated text: Python's `"\n".join(lines)` and `text.split("\n")`. */
module Text {

  predicate NoNewline(s: string)
  {
    '\n' !in s
  }

  /** Python's `"\n".join(lines)`. */
  function Join(lines: seq<string>): (r: string)
    ensures |lines| == 1 ==> r == lines[0]
  {
    if |lines| == 0 then ""
    else if |lines| == 1 then lines[0]
    else lines[0] + "\n" + Join(lines[1..])
  }

  /** Python's `text.split("\n")`: always at least one piece. */
  function Split(s: string): (r: seq<string>)
    ensures |r| >= 1
    decreases |s|
  {
    if |s| == 0 then [""]
    else
      var t := Split(s[1..]);
      if s[0] == '\n' then [""] + t else [[s[0]] + t[0]] + t[1..]
  }

  lemma {:induction false} SplitSingle(x: string)
    requires NoNewline(x)
    ensures Split(x) == [x]
    decreases |x|
  {
    if |x| > 0 {
      SplitSingle(x[1..]);
      assert [x[0]] + x[1..] == x;
    }
  }

  lemma {:induction false} SplitCons(x: string, rest: string)
    requires NoNewline(x)
    ensures Split(x + "\n" + rest) == [x] + Split(rest)
    decreases |x|
  {
    var s := x + "\n" + rest;
    if |x| == 0 {
      assert s[1..] == rest;
    } else {
      assert s[1..] == x[1..] + "\n" + rest;
      SplitCons(x[1..], rest);
      assert [x[0]] + x[1..] == x;
    }
  }

  /** Splitting a join of newline-free lines gives the lines back. */
  lemma {:induction false} SplitJoin(lines: seq<string>)
    requires |lines| >= 1
    requires forall k :: 0 <= k < |lines| ==> NoNewline(lines[k])
    ensures Split(Join(lines)) == lines
    decreases |lines|
  {
    if |lines| == 1 {
      SplitSingle(lines[0]);
    } else {
      SplitCons(lines[0], Join(lines[1..]));
      SplitJoin(lines[1..]);
    }
  }
}

=== FILE: verdict.dfy ===
/** The clinical verdict `sprawdz_parametry` (neonatology/views.py): three fixed
    rules over at most three measurements read from a dictionary, with defaults
    for absent keys, giving either the "normal" sentence or a header line
    followed by the warnings that fired, in rule order. */
module Verdict {
  import opened Basics
  import opened PyValues
  import Text

  // The thresholds of the three rules.
  const ApgarMin: int := 7
  const WeightMinKg: real := 2.5
  const SpO2Min: int := 92

  // The dictionary keys the verdict reads, and the defaults for absent keys.
  const WeightKey: string := "waga_kg"
  const Apgar5Key: string := "apgar_5min"
  const SpO2Key: string := "natlenienie_spO2"
  const WeightDefault: PyValue := PyInt(0)
  const Apgar5Default: PyValue := PyInt(10)
  const SpO2Default: PyValue := PyInt(100)

  /** A warning that fired; the weight and oxygen warnings carry the value they print. */
  datatype Warning = LowApgar | LowWeight(wagaKg: real) | LowOxygen(spO2: int)

  datatype Verdict = Normal | Abnormal(warnings: seq<Warning>)

  /** The three rules, in the order the verdict checks them. */
  datatype Rule = ApgarRule | WeightRule | OxygenRule

  function RuleOf(w: Warning): Rule
  {
    match w
    case LowApgar => ApgarRule
    case LowWeight(_) => WeightRule
    case LowOxygen(_) => OxygenRule
  }

  function Rank(r: Rule): nat
  {
    match r
    case ApgarRule => 0
    case WeightRule => 1
    case OxygenRule => 2
  }

  /** The measurements after conversion and defaulting. */
  datatype Reading = Reading(wagaKg: real, apgar5Min: int, spO2: int)

  /** Whether rule `r` is violated by reading `m`. */
  predicate Violated(r: Rule, m: Reading)
  {
    match r
    case ApgarRule => m.apgar5Min < ApgarMin
    case WeightRule => m.wagaKg < WeightMinKg
    case OxygenRule => m.spO2 < SpO2Min
  }

  /** The rules reading `m` violates. */
  ghost function Fired(m: Reading): set<Rule>
  {
    set r: Rule | Violated(r, m)
  }

  /** Warnings listed strictly in rule order, so each rule at most once. */
  ghost predicate InRuleOrder(ws: seq<Warning>)
  {
    forall i, j :: 0 <= i < j < |ws| ==> Rank(RuleOf(ws[i])) < Rank(RuleOf(ws[j]))
  }

  /** A warning prints the value it was raised for. */
  ghost predicate Carries(w: Warning, m: Reading)
  {
    (w.LowWeight? ==> w.wagaKg == m.wagaKg) && (w.LowOxygen? ==> w.spO2 == m.spO2)
  }

  /** The rule evaluation of `sprawdz_parametry` on an already converted reading. */
  function Evaluate(m: Reading): (v: Verdict)
    ensures v.Normal? <==> Fired(m) == {}
    ensures v.Normal? <==> (m.apgar5Min >= ApgarMin && m.wagaKg >= WeightMinKg && m.spO2 >= SpO2Min)
    ensures v.Abnormal? ==> |v.warnings| > 0 && InRuleOrder(v.warnings)
    ensures v.Abnormal? ==> forall w :: w in v.warnings <==> RuleOf(w) in Fired(m) && Carries(w, m)
  {
    var ws :=
      (if m.apgar5Min < ApgarMin then [LowApgar] else [])
      + (if m.wagaKg < WeightMinKg then [LowWeight(m.wagaKg)] else [])
      + (if m.spO2 < SpO2Min then [LowOxygen(m.spO2)] else []);
    assert Violated(ApgarRule, m) <==> ApgarRule in Fired(m);
    assert Violated(WeightRule, m) <==> WeightRule in Fired(m);
    assert Violated(OxygenRule, m) <==> OxygenRule in Fired(m);
    if ws == [] then Normal else Abnormal(ws)
  }

  /** One line per fired rule: the number of warnings is the number of rules that fired. */
  lemma WarningCount(m: Reading)
    ensures Evaluate(m).Abnormal? ==> |Evaluate(m).warnings| == |Fired(m)|
  {
    var v := Evaluate(m);
    if v.Abnormal? {
      var ws := v.warnings;
      var rules := seq(|ws|, i requires 0 <= i < |ws| => RuleOf(ws[i]));
      assert Fired(m) == set i | 0 <= i < |ws| :: rules[i] by {
        forall r | r in Fired(m) ensures exists i :: 0 <= i < |ws| && rules[i] == r {
          var w := match r case ApgarRule => LowApgar case WeightRule => LowWeight(m.wagaKg)
                   case OxygenRule => LowOxygen(m.spO2);
          assert w in ws;
          var i :| 0 <= i < |ws| && ws[i] == w;
          assert rules[i] == r;
        }
      }
      DistinctCount(rules);
    }
  }

  lemma {:induction false} DistinctCount(rules: seq<Rule>)
    requires forall i, j :: 0 <= i < j < |rules| ==> Rank(rules[i]) < Rank(rules[j])
    ensures |set i | 0 <= i < |rules| :: rules[i]| == |rules|
    decreases |rules|
  {
    if |rules| > 0 {
      var front := rules[..|rules| - 1];
      DistinctCount(front);
      var last := rules[|rules| - 1];
      var s := set i | 0 <= i < |rules| :: rules[i];
      var sf := set i | 0 <= i < |front| :: front[i];
      assert s == sf + {last};
      assert last !in sf;
    }
  }

  /** The conversions of `sprawdz_parametry`, in its order: `float` of the weight,
      then `int` of APGAR-5 and of SpO2, each defaulted when its key is absent. */
  function Read(dane: map<string, PyValue>): (r: Result<Reading, PyError>)
    ensures r.Ok? <==>
      Float(Get(dane, WeightKey, WeightDefault)).Ok?
      && Int(Get(dane, Apgar5Key, Apgar5Default)).Ok?
      && Int(Get(dane, SpO2Key, SpO2Default)).Ok?
    ensures WeightKey !in dane && r.Ok? ==> r.value.wagaKg == 0.0
    ensures Apgar5Key !in dane && r.Ok? ==> r.value.apgar5Min == 10
    ensures SpO2Key !in dane && r.Ok? ==> r.value.spO2 == 100
    ensures WeightKey in dane && r.Ok? ==> Float(dane[WeightKey]) == Ok(r.value.wagaKg)
    ensures Apgar5Key in dane && r.Ok? ==> Int(dane[Apgar5Key]) == Ok(r.value.apgar5Min)
    ensures SpO2Key in dane && r.Ok? ==> Int(dane[SpO2Key]) == Ok(r.value.spO2)
  {
    match Float(Get(dane, WeightKey, WeightDefault))
    case Err(e) => Err(e)
    case Ok(waga) =>
      match Int(Get(dane, Apgar5Key, Apgar5Default))
      case Err(e) => Err(e)
      case Ok(apgar) =>
        match Int(Get(dane, SpO2Key, SpO2Default))
        case Err(e) => Err(e)
        case Ok(spo2) => Ok(Reading(waga, apgar, spo2))
  }

  /** `sprawdz_parametry(dane)` with the verdict still structured. */
  function Sprawdz(dane: map<string, PyValue>): (r: Result<Verdict, PyError>)
    ensures r.Ok? <==> Read(dane).Ok?
    ensures r.Ok? ==> r.value == Evaluate(Read(dane).value)
  {
    match Read(dane)
    case Err(e) => Err(e)
    case Ok(m) => Ok(Evaluate(m))
  }

  /** A 2.0 kg newborn with good APGAR and saturation gets exactly the weight
      warning, carrying the measured 2.0 kg. */
  lemma LowWeightOnly()
    ensures Sprawdz(map[WeightKey := PyFloat(2.0), Apgar5Key := PyInt(9), SpO2Key := PyInt(98)])
      == Ok(Abnormal([LowWeight(2.0)]))
  {
    var dane := map[WeightKey := PyFloat(2.0), Apgar5Key := PyInt(9), SpO2Key := PyInt(98)];
    var m := Reading(2.0, 9, 98);
    assert Read(dane) == Ok(m);
    assert Evaluate(m).warnings == [] + [LowWeight(2.0)] + [];
    assert [] + [LowWeight(2.0)] + [] == [LowWeight(2.0)];
  }

  /** With every key absent, the defaults fire exactly the weight rule, on 0.0 kg. */
  lemma EmptyInputLowWeightOnly()
    ensures Sprawdz(map[]) == Ok(Abnormal([LowWeight(0.0)]))
  {
    var m := Reading(0.0, 10, 100);
    assert Read(map[]) == Ok(m);
    assert Evaluate(m).warnings == [] + [LowWeight(0.0)] + [];
    assert [] + [LowWeight(0.0)] + [] == [LowWeight(0.0)];
  }

  /** The APGAR and oxygen defaults never raise an alarm. */
  lemma DefaultsPassApgarAndOxygen(dane: map<string, PyValue>)
    requires Sprawdz(dane).Ok? && Sprawdz(dane).value.Abnormal?
    ensures Apgar5Key !in dane ==> LowApgar !in Sprawdz(dane).value.warnings
    ensures SpO2Key !in dane ==> forall w :: w in Sprawdz(dane).value.warnings ==> !w.LowOxygen?
  {
  }

  /** The verdict depends only on the three measurement keys. */
  lemma ReadsOnlyMeasurementKeys(a: map<string, PyValue>, b: map<string, PyValue>)
    requires forall k :: k in {WeightKey, Apgar5Key, SpO2Key} ==> Lookup(a, k) == Lookup(b, k)
    ensures Sprawdz(a) == Sprawdz(b)
  {
    assert Lookup(a, WeightKey) == Lookup(b, WeightKey);
    assert Lookup(a, Apgar5Key) == Lookup(b, Apgar5Key);
    assert Lookup(a, SpO2Key) == Lookup(b, SpO2Key);
  }

  // ---------------------------------------------------------------- rendering

  // The fixed sentences, assembled from short pieces so that the verifier can
  // inspect their characters.
  const NormalText: string := "Parametry w normie. " + "Dziecko nie wymaga dodatkowej " + "interwencji."
  const HeaderLine: string := "UWAGA, NIEPRAWIDŁOWE " + "PARAMETRY:"
  const ApgarText: string :=
    "Niska ocena APGAR (poniżej 7 " + "w 5. minucie). Wymagana " + "hospitalizacja " + "i monitorowania."
  const WeightPrefix: string := "Niska masa urodzeniowa ("
  const WeightSuffix: string := " kg). Niezbędne " + "monitorowanie karmienia " + "i przyrostów."
  const OxygenPrefix: string := "Niskie natlenienie krwi ("
  const OxygenSuffix: string := "%). Wymagane dodatkowe " + "badania saturacji i oddechu."

  /** A float formatter that never emits a line break (Python's float repr does not). */
  ghost predicate SingleLine(showFloat: real -> string)
  {
    forall x :: Text.NoNewline(showFloat(x))
  }

  /** The printed line of one warning; `showFloat` stands for Python's float formatting. */
  function WarningText(w: Warning, showFloat: real -> string): string
  {
    match w
    case LowApgar => ApgarText
    case LowWeight(x) => WeightPrefix + showFloat(x) + WeightSuffix
    case LowOxygen(o) => OxygenPrefix + IntToString(o) + OxygenSuffix
  }

  /** The oxygen warning embeds its percentage, which reads back out of the text. */
  lemma OxygenWarningEmbedsValue(o: int, showFloat: real -> string)
    ensures var t := WarningText(LowOxygen(o), showFloat);
      |OxygenPrefix| + |OxygenSuffix| < |t|
      && ParseInt(t[|OxygenPrefix|..|t| - |OxygenSuffix|]) == o
  {
    var t := WarningText(LowOxygen(o), showFloat);
    assert t[|OxygenPrefix|..|t| - |OxygenSuffix|] == IntToString(o);
    IntToStringRoundTrip(o);
  }

  /** The weight warning embeds the formatted weight; the APGAR warning embeds nothing. */
  lemma WarningEmbedsValue(x: real, showFloat: real -> string)
    ensures var t := WarningText(LowWeight(x), showFloat);
      |WeightPrefix| + |WeightSuffix| <= |t|
      && t[|WeightPrefix|..|t| - |WeightSuffix|] == showFloat(x)
    ensures forall f: real -> string :: WarningText(LowApgar, f) == WarningText(LowApgar, showFloat)
  {
    var t := WarningText(LowWeight(x), showFloat);
    assert t[|WeightPrefix|..|t| - |WeightSuffix|] == showFloat(x);
  }

  lemma NormalAndHeaderSingleLine()
    ensures Text.NoNewline(NormalText) && Text.NoNewline(HeaderLine)
  {
    assert '\n' !in "Parametry w normie. " && '\n' !in "Dziecko nie wymaga dodatkowej " && '\n' !in "interwencji.";
    assert '\n' !in "UWAGA, NIEPRAWIDŁOWE " && '\n' !in "PARAMETRY:";
  }

  lemma ApgarTextSingleLine()
    ensures Text.NoNewline(ApgarText)
  {
    assert '\n' !in "Niska ocena APGAR (poniżej 7 " && '\n' !in "w 5. minucie). Wymagana ";
    assert '\n' !in "hospitalizacja " && '\n' !in "i monitorowania.";
  }

  lemma WeightTextSingleLine()
    ensures Text.NoNewline(WeightPrefix) && Text.NoNewline(WeightSuffix)
  {
    assert '\n' !in " kg). Niezbędne " && '\n' !in "monitorowanie karmienia " && '\n' !in "i przyrostów.";
  }

  lemma OxygenTextSingleLine()
    ensures Text.NoNewline(OxygenPrefix) && Text.NoNewline(OxygenSuffix)
  {
    assert '\n' !in "%). Wymagane dodatkowe " && '\n' !in "badania saturacji i oddechu.";
  }

  lemma WarningTextSingleLine(w: Warning, showFloat: real -> string)
    requires SingleLine(showFloat)
    ensures Text.NoNewline(WarningText(w, showFloat))
  {
    match w
    case LowApgar =>
      ApgarTextSingleLine();
    case LowWeight(x) =>
      WeightTextSingleLine();
      assert Text.NoNewline(showFloat(x));
    case LowOxygen(o) =>
      OxygenTextSingleLine();
  }

  /** The text `sprawdz_parametry` returns for a verdict. */
  function Render(v: Verdict, showFloat: real -> string): string
  {
    match v
    case Normal => NormalText
    case Abnormal(ws) =>
      HeaderLine + "\n" + Text.Join(seq(|ws|, i requires 0 <= i < |ws| => WarningText(ws[i], showFloat)))
  }

  /** Split into lines, an abnormal verdict's text is the header followed by one
      line per warning, in order; the normal sentence is one line and is not the header. */
  lemma RenderLines(v: Verdict, showFloat: real -> string)
    requires SingleLine(showFloat)
    requires v.Abnormal? ==> |v.warnings| > 0
    ensures v.Normal? ==> Text.Split(Render(v, showFloat)) == [NormalText] && NormalText != HeaderLine
    ensures v.Abnormal? ==>
      Text.Split(Render(v, showFloat)) == [HeaderLine] + seq(|v.warnings|, i requires 0 <= i < |v.warnings| => WarningText(v.warnings[i], showFloat))
  {
    match v
    case Normal =>
      NormalAndHeaderSingleLine();
      Text.SplitSingle(NormalText);
      assert NormalText[0] != HeaderLine[0];
    case Abnormal(ws) =>
      var lines := seq(|ws|, i requires 0 <= i < |ws| => WarningText(ws[i], showFloat));
      NormalAndHeaderSingleLine();
      forall k | 0 <= k < |lines| ensures Text.NoNewline(lines[k]) {
        WarningTextSingleLine(ws[k], showFloat);
      }
      Text.SplitCons(HeaderLine, Text.Join(lines));
      Text.SplitJoin(lines);
  }

  /** `sprawdz_parametry(dane)` as text. */
  function SprawdzParametry(dane: map<string, PyValue>, showFloat: real -> string): (r: Result<string, PyError>)
    ensures r.Ok? <==> Read(dane).Ok?
    ensures r.Ok? ==> (r.value == NormalText <==> Fired(Read(dane).value) == {})
    ensures r.Ok? && r.value != NormalText ==> HeaderLine + "\n" <= r.value
  {
    match Sprawdz(dane)
    case Err(e) => Err(e)
    case Ok(v) =>
      var text := Render(v, showFloat);
      assert v.Abnormal? ==> text[..|HeaderLine| + 1] == HeaderLine + "\n";
      assert v.Abnormal? ==> text != NormalText by {
        if v.Abnormal? { assert text[0] != NormalText[0]; }
      }
      Ok(text)
  }

  /** The text has one line after the header per rule that fired. */
  lemma LinesAfterHeader(dane: map<string, PyValue>, showFloat: real -> string)
    requires SingleLine(showFloat)
    requires SprawdzParametry(dane, showFloat).Ok?
    requires SprawdzParametry(dane, showFloat).value != NormalText
    ensures var lines := Text.Split(SprawdzParametry(dane, showFloat).value);
      lines[0] == HeaderLine && |lines| - 1 == |Fired(Read(dane).value)|
  {
    var v := Sprawdz(dane).value;
    RenderLines(v, showFloat);
    WarningCount(Read(dane).value);
  }
}
